=== FILE: README.md ===
# large-file-uploader: a Dafny model of the upload scheduler

This project models the scheduling core of `large-file-uploader`, a browser
library that uploads large files in chunks with pause, resume and automatic
retry. It covers three pieces:

- **Slicing and the per-file upload** (`src/large-file-uploader/index.ts`).
  `handleChange` cuts every selected file into `sliceSize`-byte chunks. Each
  file then gets one promise whose closure holds a retry counter, a
  `suspended` flag, a committed offset `sliceStart` and an opaque
  `customParams`. `autoUpload`, `handleFail`, `pause` and `resume` drive it
  through the states initialization, uploading, suspended, failure and
  completed. Every change is written to a shared progress list through
  `updateProgressList` and handed to `handleProcess`. `finish` is called
  once all promises resolve.
- **Round-robin hashing tasks** (`src/large-file-uploader/utils/multithreading.ts`).
  `multithreading` posts task `i` to worker `i % n` and collects the replies
  by task index. `createSetTaskToMultithreading` builds a submitter with a
  cycling `threadIndex` and a handler table keyed by a counter.
  `isEqualArray` decides whether message listeners are attached.
- **Promotion lookup** (`src/large-file-uploader/utils/findFirstWaiting.ts`).
  It returns the first row whose status is waiting.

## How the model is built

- `upload` is the network, so it is not called. Each call it would make is
  recorded as *in flight*. An `Event` later settles one in-flight call as
  succeeded (with the value it resolved to) or failed. A user's `pause` or
  `resume` is also an event. One file's upload is therefore a pure
  transition system, `Session.Next`.
- The model keeps the in-flight calls as a sequence rather than a single
  slot, because the source can have two at once (see Findings).
- Progress is the exact fraction `Ratio(num, den)` that `computeProgress`
  rounds. The literal `progress: 0` is `Ratio(0, 1)`. `Ratio(0, 0)` is
  JavaScript's `0 / 0`.
- `handleProcess` is an output. Every transition returns the progress
  lists it would have been handed, in order (`Step.reports`).
- `customParams` and the transport's results are opaque `Token`s. Task
  payloads and worker results are opaque `Datum`s.
- A promise settles at most once (`Session.Settle`). Later `resolve` or
  `reject` calls have no effect.
- `Session.Next`, and everything proved about it in `SessionInvariant`,
  uses the corrected `resume` (Findings, row 1). `Session.NextAsWritten`
  uses the source's `resume`.

Behaviour of the code worth knowing:

- A failed batch is retried even while the file is paused, because
  `handleFail` never reads `suspended` (`SessionInvariant.FailWhilePausedStillUploads`).
- `resume` acts only from suspended or failure, not from initialization.
- `index.ts` has no admission counter: `handleChange` starts every file
  at once.
- The batch passed to `upload` carries no fingerprint.
- The committed offset and the reported progress are counted in chunks, not
  bytes.
- With `chunksNumber` 0, `nextStart` equals `start`: every batch is empty,
  and each success uploads the same offset again, so the file never completes
  (`SessionInvariant.ZeroBatchSizeNeverAdvances`).
- Just before completing, `handleProcess` may be handed an uploading row
  whose progress is above one (`SessionInvariant.LastBatchReportsProgressAboveOne`).
- `index.ts` keeps a row's status in the field `result`, while
  `findFirstWaiting` reads `u.status` and the declared status union has no
  `waiting`. The model gives a row one `status` field and the full status
  set: initialization, waiting, uploading, suspended, failure, completed and
  cancel.

## Model

| member | source | states |
|---|---|---|
| `Chunking.CeilDiv` | src/large-file-uploader/index.ts:79 | `Math.ceil(size / sliceSize)`: the slices reach at least `size`, and all but the last start below it |
| `Chunking.SliceFile` | src/large-file-uploader/index.ts:75-91 | A file of at least `minSlicedFileSize` bytes yields `ceil(size/sliceSize)` chunks. Chunk `i` is `[i*sliceSize, min((i+1)*sliceSize, size))`. A smaller file yields the single chunk `[0, size)`. With `sliceSize` 0 a 0-byte sliced file yields no chunks (`Math.ceil(0/0)` is NaN); the only excluded input is the one on which the loop never ends |
| `Chunking.SlicingCoversFile` | src/large-file-uploader/index.ts:78-89 | For every size and option value on which the slicing loop ends (any `sliceSize`, 0 included): the chunks start at byte 0 and end at `size`. Each begins where the previous ended, and their lengths sum to `size` |
| `Chunking.SlicingOnlyLastShorter` | src/large-file-uploader/index.ts:78-86 | For a file of at least `minSlicedFileSize` bytes, every chunk but the last is exactly `sliceSize` long. The last holds `size - sliceSize*(n-1)` bytes, between 1 and `sliceSize` |
| `Chunking.ThreeChunkFile` | src/large-file-uploader/index.ts:78-86 | 250,000 bytes with slices of 100,000 give chunks of 100,000, 100,000 and 50,000 bytes |
| `Progress.UpdateProgressList` | src/large-file-uploader/index.ts:102-112 | Row `index` takes exactly the fields present in the patch and keeps its other fields and its file. Every other row is unchanged, and the list keeps its length |
| `Progress.UpdateComposes` | src/large-file-uploader/index.ts:106-109 | Two updates of a row equal one update with the later patch spread over the earlier |
| `Progress.UpdateIdempotent` | src/large-file-uploader/index.ts:106-109 | Re-applying a patch changes nothing |
| `Progress.InitialEntry` | src/large-file-uploader/index.ts:92-98 | A new row is in initialization for its own file, with progress exactly 0 (below one) and no controls |
| `Progress.ComputeProgress` | src/large-file-uploader/index.ts:120-121 | The share `start/length` of the file's chunks: it is exactly one if and only if `start == length > 0`, and below one if and only if `start < length`. Rounding is not modelled |
| `Session.Settle` | src/large-file-uploader/index.ts:119 | The file's promise keeps its first settlement |
| `Session.Fresh` | src/large-file-uploader/index.ts:114-118 | A new file's closure starts with `_retryCount` 0, not suspended, `sliceStart` 0, no `customParams`, nothing in flight and its promise pending |
| `Session.UploadCall` | src/large-file-uploader/index.ts:147-156 | A call at `start` carries the chunks from `start` through `end = start+chunksNumber-1` that exist, in order, with `size` = chunk count and the current `customParams` |
| `Session.AutoUpload` | src/large-file-uploader/index.ts:136-156 | Past the last chunk: the row becomes completed with progress `length/length` and keeps its file and controls, `sliceStart = length`, and the promise resolves `true`. Otherwise: exactly one call is added to those in flight, and nothing else changes. Other rows are never touched |
| `Session.Begin` | src/large-file-uploader/index.ts:175-210 | Controls are attached and the row is reported uploading at progress 0, keeping its file. With chunks, the closure is the fresh one (no retries, not paused, offset 0, no `customParams`, promise pending) with the batch at 0 in flight. A file without chunks completes at once, at progress `0/0`, and resolves `true`. `handleProcess` is handed exactly one list when the file has chunks, the uploading one, which is also the list left behind. Without chunks it is handed two, the uploading list and then the completed one |
| `Session.Succeed` | src/large-file-uploader/index.ts:157-170 | The retry counter resets to 0 and `customParams` takes the resolved value, even when paused. When paused, nothing else changes. Otherwise the row is reported uploading at progress `(start+chunksNumber)/length`, keeping its file and controls, and the offset moves there. The upload then continues there, or the row becomes completed at `length/length` and the promise resolves `true`. The last list reported is the one left behind |
| `Session.Fail` | src/large-file-uploader/index.ts:122-135 | Below `retryCount` the counter increments and the same offset is called again; nothing else changes. At the limit the row becomes failure with progress at `start`, keeping its file and controls; `sliceStart = start`, and the promise rejects with `start`. That list is the one handed to `handleProcess`. A retry whose offset is already past the last chunk completes the file and hands over the completed list. `suspended` plays no part |
| `Session.Pause` | src/large-file-uploader/index.ts:176-186 | `suspended` is always set. Only an uploading row becomes suspended, with progress at the committed `sliceStart`, keeping its file and controls; any other row is unchanged |
| `Session.ResumeAsWritten` | src/large-file-uploader/index.ts:187-202 | Only a suspended or failed row resumes: counter 0, `suspended` cleared, status uploading, and a new call at `sliceStart`, even while another call is in flight. `sliceStart`, `customParams`, the promise, the chunks and the row's progress, file and controls stay as they were. At or past the last chunk it completes instead. `handleProcess` is first handed the list with the row uploading. A new call adds nothing more; completing adds the completed list, which is the one left behind. Any other row is unchanged |
| `Session.Resume` | src/large-file-uploader/index.ts:187-202 | Corrected `resume`: the same guard and resets, but a new call at `sliceStart` is made only when no call is in flight; a call already in flight is kept. `sliceStart`, `customParams`, the promise, the chunks and the row's progress, file and controls stay as they were. `handleProcess` is handed the uploading list first, and then the completed list only when the file completes |
| `Session.NextHandsOver` | src/large-file-uploader/index.ts:102-112 | Every event, with either `resume`, hands `handleProcess` lists of the old length that differ only in the file's own row. The last of them is the list left behind; when none is handed over, the list is unchanged |
| `SessionInvariant.BeginEstablishes` | src/large-file-uploader/index.ts:204-210 | After the promise body runs, the file's upload satisfies the session invariant |
| `SessionInvariant.NextPreservesInv` | src/large-file-uploader/index.ts:113-211 | Corrected: with the corrected `resume`, every event keeps the invariant (as written, `SessionInvariant.ResumeDuringBatchUploadsTwice` breaks it). It says: at most one call in flight, and it is the batch at `sliceStart`; `sliceStart <= length`; retries `<= retryCount`; uploading implies not paused and a call in flight; failure implies a rejected promise; completed implies `sliceStart = length` and progress `length/length` |
| `SessionInvariant.NextKeepsOffsetMonotone` | src/large-file-uploader/index.ts:157-169 | Corrected: with the corrected `resume`, no event moves the committed offset back. As written it can go back (`SessionInvariant.ResumeDuringBatchRollsBackOffset`) |
| `SessionInvariant.ProgressWholeIffCompleted` | src/large-file-uploader/index.ts:120-145 | For a file with chunks, progress is exactly one if and only if the row is completed |
| `SessionInvariant.RunPreservesInv` | src/large-file-uploader/index.ts:113-211 | Corrected: along any sequence of events the invariant holds, at most one call is in flight, and the committed offset never decreases |
| `SessionInvariant.ConsecutiveFailures` | src/large-file-uploader/index.ts:122-134 | From an uploading row with `r` retries used, `retryCount - r` further failures each retry the same offset. The next failure turns the row to failure at that offset and rejects with it, so a fresh counter needs `retryCount + 1` consecutive failures |
| `SessionInvariant.FourRejectionsThenResume` | src/large-file-uploader/index.ts:187-200 | With `retryCount` 3, four rejections at offset 0 fail the file. `resume` then calls offset 0 again with the counter at 0 |
| `SessionInvariant.PauseResumeKeepsOneCall` | src/large-file-uploader/index.ts:176-202 | Corrected: pausing and resuming while a batch is in flight leaves exactly that one call in flight |
| `SessionInvariant.ResumeDuringBatchUploadsTwice` | src/large-file-uploader/index.ts:187-202 | As written: pausing and resuming while the batch at offset 0 is in flight puts a second call for offset 0 in flight |
| `SessionInvariant.ResumeDuringBatchRollsBackOffset` | src/large-file-uploader/index.ts:157-169 | As written: with three chunks and one chunk per batch, pause and resume while the batch at 0 is in flight. The later call at 0 and then its follow-up at 1 succeed, then the older call at 0 succeeds. The offset goes from 2 back to 1, and `handleProcess` sees 2/3 and then 1/3. If instead the follow-up at 2 also succeeds, the file completes and its promise resolves `true`. The older call then puts the completed row back to uploading at 1/3 |
| `SessionInvariant.TwoCallsAtZeroRollBack` | src/large-file-uploader/index.ts:157-169 | As written: from any state with two calls at offset 0 in flight, three chunks and one chunk per batch, that order of successes moves the offset from 2 back to 1 |
| `SessionInvariant.TwoCallsAtZeroReopen` | src/large-file-uploader/index.ts:157-169 | As written: from any state with two calls at offset 0 in flight, three chunks, one chunk per batch and the promise pending, the later chain completes the file. The row is completed and the promise resolved `true`. Then the older call's success makes the row uploading again at 1/3, with a new call in flight |
| `SessionInvariant.NextAsWrittenResolvesTrue` | src/large-file-uploader/index.ts:133-144 | As written, no event settles the file's promise with anything but `true` or a rejection: `resolve` is only ever called with `true` |
| `SessionInvariant.RunAsWrittenResolvesTrue` | src/large-file-uploader/index.ts:119-210 | As written, from the promise body on and along any events, the file's promise never resolves `false`, also in states with two calls in flight |
| `SessionInvariant.FailWhilePausedStillUploads` | src/large-file-uploader/index.ts:122-126 | A paused file whose call fails below the retry limit uploads the same batch again, and its row stays suspended |
| `SessionInvariant.LastBatchReportsProgressAboveOne` | src/large-file-uploader/index.ts:163-169 | When the last batch overshoots the chunk count, `handleProcess` first sees an uploading row at progress 3/2, then the completed row at 2/2 |
| `SessionInvariant.ZeroBatchSizeNeverAdvances` | src/large-file-uploader/index.ts:146-169 | With `chunksNumber` 0, a success keeps the offset where it was. The row is reported uploading at that same offset, and the call put in flight is for that offset with no chunks. The promise stays as it was, so the file never completes |
| `Uploader.SetDefaultOptions` | src/large-file-uploader/index.ts:245-258 | Every given option wins. Each missing one takes its default: `sliceSize` 14000, `minSlicedFileSize` 20000, multithreading on, `chunksNumber` 3, `retryCount` 3 |
| `Uploader.DefaultsFillOnlyGaps` | src/large-file-uploader/index.ts:245-258 | Fully given options pass through unchanged, and no options give exactly the defaults |
| `Uploader.HandleChange` | src/large-file-uploader/index.ts:71-212 | There is one row and one upload per file, in order. Each file's chunks follow the slicing rule, its row keeps its file and has controls, every upload satisfies the invariant, and no promise has resolved `false`. A file with chunks is uploading with the batch at 0 in flight. The lists handed to `handleProcess` are returned, at least one per file, the last being the final list |
| `Uploader.Deliver` | src/large-file-uploader/index.ts:102-112 | An event for one file leaves every other file's row and closure state unchanged. It returns the lists handed to `handleProcess`: each has the same length, differs from the old list only in that file's row, and the last is the new list. With no list handed over, nothing changed |
| `Uploader.DeliverPreservesValid` | src/large-file-uploader/index.ts:113-211 | Corrected: with the corrected `resume`, an event for one file keeps every file's upload within the invariant |
| `Uploader.DeliverAsWritten` | src/large-file-uploader/index.ts:102-112 | As written, an event for one file leaves every other file's row and closure state unchanged. The lists handed to `handleProcess` are returned, with the same shape as for `Uploader.Deliver` |
| `Uploader.DeliverAsWrittenKeepsOnlyTrue` | src/large-file-uploader/index.ts:119-210 | As written, every event keeps every file's promise from resolving with `false` |
| `Uploader.FinishAsWritten` | src/large-file-uploader/index.ts:213-218 | `Promise.all` then `finish`: abandoned exactly when some promise rejected, finished exactly when all resolved, and then with `true` exactly when all resolved `true`. Otherwise still awaiting |
| `Uploader.FinishNeverReportsFailure` | src/large-file-uploader/index.ts:213-218 | As written, for any files whose promises never resolved `false` (every as-written state, by `Uploader.DeliverAsWrittenKeepsOnlyTrue`), `finish` is never called with `false`. Once any file's promise rejects, `finish` is never called at all |
| `Uploader.Finish` | src/large-file-uploader/index.ts:213-218 | Corrected `finish`: it reports `true` exactly when every file resolved `true`. It reports `false` exactly when all have settled and some did not resolve `true` |
| `Uploader.FailedFileIsReported` | src/large-file-uploader/index.ts:213-218 | Corrected: once every file has settled and one was rejected, `finish` reports `false` |
| `Multithreading.EveryFrom` | src/large-file-uploader/utils/multithreading.ts:7 | The element-wise `every` from position `i` is true exactly when the two suffixes are equal |
| `Multithreading.IsEqualArray` | src/large-file-uploader/utils/multithreading.ts:1-11 | True if and only if both arguments are arrays of equal length whose elements are pairwise identical |
| `Multithreading.Dispatch` | src/large-file-uploader/utils/multithreading.ts:25-31 | Task `i` is posted with its own index and data to worker `i % n`, always below `n`, so worker `w` receives `m / n` posts plus one if `w < m % n`. With no workers nothing is posted |
| `Multithreading.RoundRobinBalance` | src/large-file-uploader/utils/multithreading.ts:25-29 | When post `i` goes to worker `i % n`, worker `w` receives `m / n` of the `m` posts, plus one if `w < m % n` |
| `Multithreading.Posted` | src/large-file-uploader/utils/multithreading.ts:25-31 | Right after posting no task has fulfilled. With workers every task is pending; with none every task has already rejected, because the post throws |
| `Multithreading.OnMessage` | src/large-file-uploader/utils/multithreading.ts:32-46 | A reply settles only the task its index names, and only if that task is still pending: fulfilled with its data when `result` is true, rejected otherwise. Settled tasks never change |
| `Multithreading.CollectByIndex` | src/large-file-uploader/utils/multithreading.ts:40-46 | After any replies, an unsettled task's promise holds what the first reply tagged with its index carried. Replies for other tasks do not matter |
| `Multithreading.ReplyOrderIrrelevant` | src/large-file-uploader/utils/multithreading.ts:40-46 | Any two arrival orders of the same replies, one per task, settle every promise alike |
| `Multithreading.ResultsInTaskOrder` | src/large-file-uploader/utils/multithreading.ts:25-50 | A resolved call lists one result per task, in task order. Result `i` is what the first reply tagged `i` carried |
| `Multithreading.FailedReplyRejects` | src/large-file-uploader/utils/multithreading.ts:41-50 | If the first reply for some task has `result` false, the whole call rejects |
| `Multithreading.Combine` | src/large-file-uploader/utils/multithreading.ts:50 | `Promise.all`: rejects exactly when some task rejected; fulfils exactly when every task fulfilled, with the values in task order |
| `Multithreading.NoWorkersRejects` | src/large-file-uploader/utils/multithreading.ts:25-31 | With no workers, a call with tasks rejects whatever replies arrive. A call without tasks resolves to the empty list |
| `Multithreading.CreateSetTask` | src/large-file-uploader/utils/multithreading.ts:64-90 | A new submitter starts both counters at 0. Listeners are attached, and `prevThreads` replaced, exactly when `isEqualArray` finds the worker array different from `prevThreads` |
| `Multithreading.ListenersAttachedOnce` | src/large-file-uploader/utils/multithreading.ts:85-90 | Two submitters built on the same worker array attach listeners only once |
| `Multithreading.NextThreadIndex` | src/large-file-uploader/utils/multithreading.ts:99-103 | For a `threadIndex` below `n`, the next one is `(threadIndex + 1) % n`, again below `n` |
| `Multithreading.Submit` | src/large-file-uploader/utils/multithreading.ts:91-109 | The task is posted to `threads[threadIndex]`, tagged with the current key and task name. `threadIndex` moves on and wraps to 0 exactly after `n-1`. The handler is stored under the key and the key increments. Other task names are untouched. With no workers, nothing is posted and `threadIndex` stays |
| `Multithreading.SubmitAllCounters` | src/large-file-uploader/utils/multithreading.ts:97-108 | After a batch of `k` tasks through one submitter, `threadIndex` has moved on by `k` modulo `n` and `index` by exactly `k`. The worker array and task name stay the same |
| `Multithreading.RoundRobinSubmit` | src/large-file-uploader/utils/multithreading.ts:97-103 | Through one submitter, task `j` of a batch goes to worker `(threadIndex + j) % n` with key `index + j`, so `threadIndex` cycles 0..n-1 |
| `Multithreading.SubmitAllStoresHandlers` | src/large-file-uploader/utils/multithreading.ts:105-109 | After a batch, every key one submitter assigned routes replies to the handler stored for it. Its keys never repeat |
| `Multithreading.CleanupAsWritten` | src/large-file-uploader/utils/multithreading.ts:110-112 | When a task settles, the slot at the submitter's current counter is cleared, and no other slot |
| `Multithreading.CleanupMissesOwnSlot` | src/large-file-uploader/utils/multithreading.ts:110-112 | As written: after a task is submitted and settles, its own slot still holds its handler, and the cleared slot is the next, unused key |
| `Multithreading.Cleanup` | src/large-file-uploader/utils/multithreading.ts:110-112 | Corrected: settling clears the task's own key and no other slot |
| `Multithreading.SubmitThenCleanupRestores` | src/large-file-uploader/utils/multithreading.ts:105-112 | Corrected: submitting on a free key and then settling leaves the task's handler table as it was |
| `Multithreading.SameTaskSubmittersCollide` | src/large-file-uploader/utils/multithreading.ts:57-109 | As written, from the state at load time (no handlers, `prevThreads` empty): a second submitter for the same task name also uses key 0. It overwrites the first submitter's handler, so the reply to the first task reaches the second |
| `Multithreading.SubmitKeyed` | src/large-file-uploader/utils/multithreading.ts:105-109 | Corrected: the key is the task name's shared counter, which then increments |
| `Multithreading.SubmitKeyedNeverOverwrites` | src/large-file-uploader/utils/multithreading.ts:105-109 | Corrected: every stored key stays below its task's counter. A submission never lands on a live handler and leaves all other handlers in place |
| `FirstWaiting.FindFirstWaiting` | src/large-file-uploader/utils/findFirstWaiting.ts:3-12 | The result is `undefined` if and only if no row is waiting, including for an empty list. A returned row is waiting and is the lowest-indexed waiting row |

## Findings

| source | as written | input that shows it | evidently intended | confidence | as-written member | corrected member |
|---|---|---|---|---|---|---|
| src/large-file-uploader/index.ts:187-202 | `resume` calls `autoUpload(sliceStart)` even while the paused batch is still in flight. When that batch settles, `suspended` is already clear, so two chains of uploads run side by side, and a late success of the older chain moves the committed offset and the reported progress back | Pause and then resume while the batch at offset 0 is in flight: two calls for offset 0 are in flight. With three one-chunk batches, the older call succeeding last moves the offset from 2 back to 1. If it succeeds after the file completed and resolved `true`, the row goes back to uploading (`SessionInvariant.TwoCallsAtZeroReopen`) | One upload chain per file; the in-flight batch continues it after `resume` | high (not executed) | `SessionInvariant.ResumeDuringBatchUploadsTwice` | `SessionInvariant.RunPreservesInv` |
| src/large-file-uploader/index.ts:213-218 | `await Promise.all(uploadList)` throws as soon as one file's promise rejects, so `finish` is never called. Every promise resolves only with `true`, so `finish({ result: false })` is dead code | One file exhausts its retries | `finish({ result: false })` once every file has settled | high (not executed) | `Uploader.FinishNeverReportsFailure` | `Uploader.FailedFileIsReported` |
| src/large-file-uploader/utils/multithreading.ts:110-112 | The `finally` clears `promiseHandlers[task][index]` using the counter's value when the task settles, not the task's own key | Submit one task and let it settle: its handler stays, and the next, unused key is cleared | Clear the settled task's own key | high (not executed) | `Multithreading.CleanupMissesOwnSlot` | `Multithreading.SubmitThenCleanupRestores` |
| src/large-file-uploader/utils/multithreading.ts:64-109 | Each submitter counts keys from 0, but all submitters share one handler table per task name | Two submitters for task "hash" submit one task each: both use key 0, and the first task's reply settles the second's promise | Keys unique per task name | medium (not executed) | `Multithreading.SameTaskSubmittersCollide` | `Multithreading.SubmitKeyedNeverOverwrites` |

## Left out

- The DOM and the file picker: the hidden `<input>`, `include`, `input.click()` and `largeFileUploader` itself (index.ts:222-243, 292-304). They are browser I/O. The model starts from the list of selected files that `handleChange` receives.
- `proxyUploaderList` and `initialUploader` (index.ts:260-290). They are language-level interception of the controller list, so the controller list and its stale row snapshots are not modelled.
- Worker construction, `postMessage`, `addEventListener` and `removeEventListener` (multithreading.ts:13-18, 47-54). They are foreign runtime calls. Workers are abstract targets, and a posted message is a value.
- A reply whose index names no task makes the listener throw. The model drops such a reply and settles nothing.
- What the worker scripts compute is not part of this model.
- `src/large-file-uploader/utils/storage.ts`. It is an IndexedDB schema with no logic.
- The rounding of progress to four decimals with `toFixed(4)` (index.ts:120-121). It is floating point; progress is kept as an exact fraction.
- SessionInvariant.ProgressWholeIffCompleted: holds for the exact fraction only. With `toFixed(4)`, a file of more than 20,000 chunks can show progress 1 while still uploading or suspended. For example, 30,001 chunks have 30000/30001 rounded to 1.
- Session.Succeed: `handleProcess` and `upload` are assumed not to throw. In the source, a throw inside the `.then` handler (index.ts:157-170) reaches the `.catch` at index.ts:171-173. That `.catch` calls `handleFail` with the old `start` after `sliceStart` and `_retryCount` were already updated, so the batch that succeeded is retried. At the limit, `sliceStart` goes back to `start` and the promise rejects. A synchronous throw from the first `upload` call (index.ts:210) rejects the promise with an error rather than an offset, which `Outcome` cannot express.
- Multithreading.Submit: with no workers, the task's promise rejects because `threads[0].postMessage` throws inside the executor (multithreading.ts:98). The model records only that nothing is posted (`message` is `None`) and keeps no promise state for the submitter; the handler is still stored and the key still increments, as in the source.
- Promise and event-loop scheduling. Settlements, pauses and resumes are sequential events in any order. Cancelling a transport call and timeouts do not exist in the source.
- The `handleProcess` and `finish` callbacks themselves are outputs. The model records the lists and the signal they would receive. The `files` argument of `finish` is not modelled.
- The `multithreadingUpload` option is given a default by `setDefaultOptions` and read nowhere else in `index.ts`.
- An option passed explicitly as `undefined` also overrides its default under object spread. The model treats it as absent.
- Admission control, cancellation (`remove`), offline storage, fingerprinting and `checkHash` do not appear in `index.ts` and are not modelled. The model includes the `waiting` and `cancel` statuses only so that `findFirstWaiting` can be stated.
- Sizes and option values are whole numbers here.
- Uploader.HandleChange: requires every file to satisfy `Chunking.SlicingTerminates`. Only selections on which the source hangs are excluded: with `sliceSize` 0, a file of positive size that is at least `minSlicedFileSize` bytes makes `Math.ceil(size / 0)` infinite, and the loop at index.ts:80-87 never ends. Every other input with `sliceSize` 0 is modelled. A file below `minSlicedFileSize` is one chunk. A 0-byte file that is at least `minSlicedFileSize` gets `Math.ceil(0 / 0)`, which is NaN, so it has no chunks and completes at once.
- UI, demo, mock and build files (`src/pages/*`, `src/Demo.tsx`, `src/App.tsx`, `src/components/*`, `src/router/index.tsx`, `src/mock.ts`, `rollup.config.js`, `vite.config.ts`) and the type-only `src/large-file-uploader/type.ts` (its statuses are in `Progress.Status`).

=== FILE: chunking.dfy ===
/**
 * How `handleChange` cuts one selected file into the byte ranges that are
 * later handed to `upload` in batches.
 */
module Chunking {

  /** The byte range [lo, hi) of a file, as `Blob.slice(lo, hi)` returns it. */
  datatype Chunk = Chunk(lo: nat, hi: nat)

  function Length(c: Chunk): int {
    c.hi - c.lo
  }

  function Min(a: nat, b: nat): nat {
    if a <= b then a else b
  }

  /** `Math.ceil(size / sliceSize)` for a positive slice size. */
  function CeilDiv(size: nat, sliceSize: nat): (n: nat)
    requires sliceSize > 0
    ensures n * sliceSize >= size
    ensures size > 0 ==> n > 0 && (n - 1) * sliceSize < size
    ensures size == 0 ==> n == 0
  {
    var n := (size + sliceSize - 1) / sliceSize;
    assert n * sliceSize + (size + sliceSize - 1) % sliceSize == size + sliceSize - 1;
    n
  }

  /** Chunk `i` of a sliced file; `Blob.slice` clips the end at the file size. */
  function SliceAt(i: nat, sliceSize: nat, size: nat): Chunk {
    Chunk(i * sliceSize, Min((i + 1) * sliceSize, size))
  }

  /**
   * The slicing loop finishes: with `sliceSize` 0 a sliced file of positive
   * size makes `Math.ceil(size / 0)` infinite and the loop never ends.
   */
  predicate SlicingTerminates(size: nat, sliceSize: nat, minSlicedFileSize: int) {
    sliceSize > 0 || size < minSlicedFileSize || size == 0
  }

  /**
   * The chunk list of one file: `ceil(size / sliceSize)` slices when the file
   * is at least `minSlicedFileSize` bytes, otherwise the whole file as one
   * chunk. With `sliceSize` 0 an empty sliced file gets `Math.ceil(0 / 0)`,
   * which is NaN, so the loop runs no times and there are no chunks.
   */
  ghost predicate IsSlicing(chunks: seq<Chunk>, size: nat, sliceSize: nat, minSlicedFileSize: int) {
    if size < minSlicedFileSize then
      chunks == [Chunk(0, size)]
    else if sliceSize == 0 then
      chunks == []
    else
      && |chunks| == CeilDiv(size, sliceSize)
      && forall i | 0 <= i < |chunks| :: chunks[i] == SliceAt(i, sliceSize, size)
  }

  /** The `for` loop of `handleChange` that builds one file's chunk list. */
  method SliceFile(size: nat, sliceSize: nat, minSlicedFileSize: int) returns (chunks: seq<Chunk>)
    requires SlicingTerminates(size, sliceSize, minSlicedFileSize)
    ensures IsSlicing(chunks, size, sliceSize, minSlicedFileSize)
  {
    chunks := [];
    if size >= minSlicedFileSize && sliceSize == 0 {
      return;
    } else if size >= minSlicedFileSize {
      var sliceNumber := CeilDiv(size, sliceSize);
      var i := 0;
      while i < sliceNumber
        invariant 0 <= i <= sliceNumber
        invariant |chunks| == i
        invariant forall j | 0 <= j < i :: chunks[j] == SliceAt(j, sliceSize, size)
      {
        chunks := chunks + [SliceAt(i, sliceSize, size)];
        i := i + 1;
      }
    } else {
      chunks := chunks + [Chunk(0, size)];
    }
  }

  /** Total number of bytes the chunks cover. */
  function TotalBytes(chunks: seq<Chunk>): int {
    if chunks == [] then 0 else Length(chunks[0]) + TotalBytes(chunks[1..])
  }

  /** Each chunk ends where the next one begins. */
  ghost predicate Contiguous(chunks: seq<Chunk>) {
    forall i | 0 <= i < |chunks| - 1 :: chunks[i].hi == chunks[i + 1].lo
  }

  /** The lengths of contiguous chunks add up to the distance they span. */
  lemma {:induction false} ContiguousTotal(chunks: seq<Chunk>)
    requires |chunks| > 0 && Contiguous(chunks)
    ensures TotalBytes(chunks) == chunks[|chunks| - 1].hi - chunks[0].lo
  {
    if |chunks| > 1 {
      var rest := chunks[1..];
      assert Contiguous(rest) by {
        forall i | 0 <= i < |rest| - 1
          ensures rest[i].hi == rest[i + 1].lo
        {
          assert rest[i] == chunks[i + 1] && rest[i + 1] == chunks[i + 2];
        }
      }
      ContiguousTotal(rest);
      assert TotalBytes(rest) == TotalBytes(chunks[1..]);
    } else {
      assert chunks[1..] == [];
    }
  }

  /** Every slice but the last reaches a full `sliceSize` boundary inside the file. */
  lemma SliceEndInside(i: nat, n: nat, size: nat, sliceSize: nat)
    requires sliceSize > 0 && n == CeilDiv(size, sliceSize)
    requires i + 1 < n
    ensures (i + 1) * sliceSize < size
  {
  }

  /**
   * The chunks of a file cover it exactly: they start at byte 0, each begins
   * where the previous one ended, and their lengths add up to the file size.
   */
  lemma {:induction false} SlicingCoversFile(chunks: seq<Chunk>, size: nat, sliceSize: nat, minSlicedFileSize: int)
    requires SlicingTerminates(size, sliceSize, minSlicedFileSize) && IsSlicing(chunks, size, sliceSize, minSlicedFileSize)
    ensures chunks != [] ==> chunks[0].lo == 0 && chunks[|chunks| - 1].hi == size
    ensures Contiguous(chunks)
    ensures TotalBytes(chunks) == size
  {
    if size >= minSlicedFileSize && sliceSize == 0 {
      assert chunks == [] && size == 0;
    } else if size >= minSlicedFileSize {
      var n := |chunks|;
      forall i | 0 <= i < n - 1
        ensures chunks[i].hi == chunks[i + 1].lo
      {
        SliceEndInside(i, n, size, sliceSize);
      }
      if n > 0 {
        assert chunks[n - 1] == SliceAt(n - 1, sliceSize, size);
        ContiguousTotal(chunks);
      } else {
        assert size == 0;
      }
    } else {
      assert TotalBytes(chunks) == Length(chunks[0]) + TotalBytes(chunks[1..]);
      assert chunks[1..] == [];
    }
  }

  /**
   * In a sliced file only the last chunk can be shorter than `sliceSize`;
   * it holds the remaining `size - sliceSize * (n - 1)` bytes, at least one.
   */
  lemma SlicingOnlyLastShorter(chunks: seq<Chunk>, size: nat, sliceSize: nat, minSlicedFileSize: int)
    requires IsSlicing(chunks, size, sliceSize, minSlicedFileSize)
    requires size >= minSlicedFileSize
    ensures forall i | 0 <= i < |chunks| - 1 :: Length(chunks[i]) == sliceSize
    ensures chunks != [] ==>
      var n := |chunks|;
      && Length(chunks[n - 1]) == size - sliceSize * (n - 1)
      && 0 < Length(chunks[n - 1]) <= sliceSize
  {
    if sliceSize == 0 {
      return;
    }
    var n := |chunks|;
    forall i | 0 <= i < n - 1
      ensures Length(chunks[i]) == sliceSize
    {
      SliceEndInside(i, n, size, sliceSize);
    }
    if n > 0 {
      assert chunks[n - 1] == SliceAt(n - 1, sliceSize, size);
    }
  }

  /**
   * A 250,000-byte file with `sliceSize` and `minSlicedFileSize` of 100,000
   * yields three chunks of 100,000, 100,000 and 50,000 bytes.
   */
  lemma ThreeChunkFile(chunks: seq<Chunk>)
    requires IsSlicing(chunks, 250000, 100000, 100000)
    ensures chunks == [Chunk(0, 100000), Chunk(100000, 200000), Chunk(200000, 250000)]
  {
  }
}

=== FILE: first_waiting.dfy ===
/**
 * `findFirstWaiting`: the first row in list order whose status is waiting.
 */
module FirstWaiting {

  import opened Optional
  import opened Progress

  /** Row `k` is waiting and no row before it is. */
  ghost predicate IsFirstWaiting(list: seq<Entry>, k: nat) {
    && k < |list|
    && list[k].status == Waiting
    && forall j | 0 <= j < k :: list[j].status != Waiting
  }

  /**
   * `findFirstWaiting`: `some` visits the rows in order, records each
   * position in `index` and stops at the first waiting row; the row at
   * `index` is returned if `some` found one, `undefined` otherwise. The list
   * is a value and is left as it was.
   */
  method FindFirstWaiting(list: seq<Entry>) returns (r: Option<Entry>)
    ensures r.None? <==> forall i | 0 <= i < |list| :: list[i].status != Waiting
    ensures r.Some? ==> r.value.status == Waiting
    ensures r.Some? ==> exists k | 0 <= k < |list| :: IsFirstWaiting(list, k) && list[k] == r.value
  {
    var index := -1;
    var found := false;
    var position := 0;
    while position < |list| && !found
      invariant 0 <= position <= |list|
      invariant found ==> 0 < position && index == position - 1 && list[index].status == Waiting
      invariant !found ==> index == position - 1
      invariant forall j | 0 <= j < position && !(found && j == index) :: list[j].status != Waiting
    {
      index := position;
      found := list[position].status == Waiting;
      position := position + 1;
    }
    if found {
      assert IsFirstWaiting(list, index);
      r := Some(list[index]);
    } else {
      r := None;
    }
  }
}

=== FILE: multithreading.dfy ===
/**
 * Round-robin distribution of hashing tasks to worker threads: the one-shot
 * `multithreading` and the reusable submitter built by
 * `createSetTaskToMultithreading`, with `isEqualArray` deciding whether
 * message listeners must be attached. Workers are abstract message targets;
 * their replies arrive as a sequence of messages in any order.
 */
module Multithreading {

  import opened Optional

  /** A worker thread, compared by identity. */
  datatype Worker = Worker(id: nat)

  /** A task payload or a worker's result, opaque here. */
  datatype Datum = Datum(raw: int)

  /** An argument of `isEqualArray`: an array, or any value that is not one. */
  datatype ArrayArg = Array(items: seq<Worker>) | NotArray

  /** `items.every((item, index) => item === other[index])` from position `i` on. */
  function EveryFrom(xs: seq<Worker>, ys: seq<Worker>, i: nat): (r: bool)
    requires |xs| == |ys| && i <= |xs|
    ensures r <==> xs[i..] == ys[i..]
    decreases |xs| - i
  {
    if i == |xs| then true else xs[i] == ys[i] && EveryFrom(xs, ys, i + 1)
  }

  /** `isEqualArray`: both are arrays of one length whose elements are pairwise identical. */
  function IsEqualArray(a: ArrayArg, b: ArrayArg): (r: bool)
    ensures r <==>
      && a.Array? && b.Array? && |a.items| == |b.items|
      && forall i | 0 <= i < |a.items| :: a.items[i] == b.items[i]
  {
    if a.Array? && b.Array? && |a.items| == |b.items| then EveryFrom(a.items, b.items, 0) else false
  }

  // ---------------------------------------------------------------------
  // multithreading(tasksData, threads)
  // ---------------------------------------------------------------------

  /** The message `{ data, index }` posted to the worker at position `worker`. */
  datatype Post = Post(worker: nat, index: nat, data: Datum)

  /**
   * The posting loop of `multithreading`: task `i` goes to worker
   * `i % threads.length`. With no workers `threads[NaN]` is undefined,
   * every post throws and nothing is sent.
   */
  method Dispatch(tasks: seq<Datum>, threadCount: nat) returns (posts: seq<Post>)
    ensures threadCount == 0 ==> posts == []
    ensures threadCount > 0 ==>
      && |posts| == |tasks|
      && forall i | 0 <= i < |tasks| ::
           posts[i].index == i && posts[i].data == tasks[i]
           && posts[i].worker < threadCount && posts[i].worker == i % threadCount
    ensures threadCount > 0 ==> forall w | 0 <= w < threadCount ::
      WorkerLoad(posts, w) == |tasks| / threadCount + (if w < |tasks| % threadCount then 1 else 0)
  {
    posts := [];
    if threadCount == 0 {
      return;
    }
    var index := 0;
    while index < |tasks|
      invariant 0 <= index <= |tasks| && |posts| == index
      invariant forall i | 0 <= i < index ::
        posts[i].index == i && posts[i].data == tasks[i]
        && posts[i].worker < threadCount && posts[i].worker == i % threadCount
    {
      posts := posts + [Post(index % threadCount, index, tasks[index])];
      index := index + 1;
    }
    forall w | 0 <= w < threadCount
      ensures WorkerLoad(posts, w) == |tasks| / threadCount + (if w < |tasks| % threadCount then 1 else 0)
    {
      RoundRobinBalance(posts, threadCount, w);
    }
  }

  /** How many of the posts go to worker `w`. */
  function WorkerLoad(posts: seq<Post>, w: nat): nat
    decreases |posts|
  {
    if posts == [] then 0
    else WorkerLoad(posts[..|posts| - 1], w) + (if posts[|posts| - 1].worker == w then 1 else 0)
  }

  lemma MulAtLeast(k: int, n: int)
    requires k >= 1 && n > 0
    ensures k * n >= n
  {
  }

  /** Quotient and remainder are the only ones with `0 <= r < n`. */
  lemma DivModUnique(a: int, n: int, q: int, r: int)
    requires n > 0 && 0 <= r < n && a == q * n + r
    ensures a / n == q && a % n == r
  {
    var q0, r0 := a / n, a % n;
    assert a == q0 * n + r0;
    assert (q - q0) * n == q * n - q0 * n;
    assert (q - q0) * n == r0 - r;
    if q > q0 {
      MulAtLeast(q - q0, n);
    } else if q < q0 {
      assert (q0 - q) * n == r - r0;
      MulAtLeast(q0 - q, n);
    }
  }

  lemma ModStep(x: nat, n: nat)
    requires n > 0
    ensures x % n == n - 1 ==> (x + 1) / n == x / n + 1 && (x + 1) % n == 0
    ensures x % n < n - 1 ==> (x + 1) / n == x / n && (x + 1) % n == x % n + 1
  {
    if x % n == n - 1 {
      DivModUnique(x + 1, n, x / n + 1, 0);
    } else {
      DivModUnique(x + 1, n, x / n, x % n + 1);
    }
  }

  /**
   * Round-robin balance: when post `i` goes to worker `i % n`, worker `w`
   * receives `m / n` of the `m` posts, plus one when `w` is below `m % n`;
   * so no two workers differ by more than one.
   */
  lemma RoundRobinBalance(posts: seq<Post>, n: nat, w: nat)
    requires n > 0 && w < n
    requires forall i | 0 <= i < |posts| :: posts[i].worker == i % n
    ensures WorkerLoad(posts, w) == |posts| / n + (if w < |posts| % n then 1 else 0)
  {
    LoadIsCount(posts, n, w);
    CountBalance(|posts|, n, w);
  }

  /** How many of the indices below `m` are `w` modulo `n`. */
  function CountTo(m: nat, n: nat, w: nat): nat
    requires n > 0
  {
    if m == 0 then 0 else CountTo(m - 1, n, w) + (if (m - 1) % n == w then 1 else 0)
  }

  /** Counting posts per worker is counting indices per residue. */
  lemma {:induction false} LoadIsCount(posts: seq<Post>, n: nat, w: nat)
    requires n > 0
    requires forall i | 0 <= i < |posts| :: posts[i].worker == i % n
    ensures WorkerLoad(posts, w) == CountTo(|posts|, n, w)
    decreases |posts|
  {
    if posts != [] {
      var front := posts[..|posts| - 1];
      assert forall i | 0 <= i < |front| :: front[i] == posts[i];
      LoadIsCount(front, n, w);
    }
  }

  /** The balance formula on indices: `w` is the residue of `m / n` indices below `m`, plus one below `m % n`. */
  lemma {:induction false} CountBalance(m: nat, n: nat, w: nat)
    requires n > 0 && w < n
    ensures CountTo(m, n, w) == m / n + (if w < m % n then 1 else 0)
  {
    if m > 0 {
      CountBalance(m - 1, n, w);
      ModStep(m - 1, n);
    }
  }

  /** A worker's reply `{ index, data, result }`. */
  datatype Reply = Reply(index: int, data: Datum, ok: bool)

  /** The state of one task's promise. */
  datatype Slot = Unsettled | Fulfilled(value: Datum) | Broken

  function SettleOf(r: Reply): Slot {
    if r.ok then Fulfilled(r.data) else Broken
  }

  /** Every task's promise right after posting: with no workers each one has already rejected. */
  function Posted(taskCount: nat, threadCount: nat): (slots: seq<Slot>)
    ensures |slots| == taskCount
    ensures forall i | 0 <= i < taskCount :: !slots[i].Fulfilled?
    ensures forall i | 0 <= i < taskCount :: (slots[i].Broken? <==> threadCount == 0)
  {
    seq(taskCount, i => if threadCount == 0 then Broken else Unsettled)
  }

  /**
   * `onmessage` of `multithreading`: the reply settles the promise of task
   * `index`, if that promise has not settled yet; a reply for an index with no
   * task throws in the listener and settles nothing.
   */
  function OnMessage(slots: seq<Slot>, r: Reply): (s: seq<Slot>)
    ensures |s| == |slots|
    ensures forall i | 0 <= i < |slots| && i != r.index :: s[i] == slots[i]
    ensures forall i | 0 <= i < |slots| && !slots[i].Unsettled? :: s[i] == slots[i]
    ensures 0 <= r.index < |slots| && slots[r.index].Unsettled? ==>
      s[r.index] == (if r.ok then Fulfilled(r.data) else Broken)
  {
    if 0 <= r.index < |slots| && slots[r.index].Unsettled? then slots[r.index := SettleOf(r)] else slots
  }

  /** The replies, in arrival order, applied to the promises. */
  function Collect(slots: seq<Slot>, replies: seq<Reply>): (s: seq<Slot>)
    ensures |s| == |slots|
    decreases |replies|
  {
    if replies == [] then slots else Collect(OnMessage(slots, replies[0]), replies[1..])
  }

  /** The settlement carried by the first reply tagged `i`, if any. */
  function FirstFor(replies: seq<Reply>, i: nat): Slot
    decreases |replies|
  {
    if replies == [] then Unsettled
    else if replies[0].index == i then SettleOf(replies[0])
    else FirstFor(replies[1..], i)
  }

  /**
   * A reply tagged `i` settles exactly the promise of task `i`: after any
   * replies, an unsettled promise holds what the first reply tagged with its
   * index carried, whatever replies for other tasks came in between.
   */
  lemma {:induction false} CollectByIndex(slots: seq<Slot>, replies: seq<Reply>, i: nat)
    requires i < |slots|
    ensures Collect(slots, replies)[i] == (if slots[i].Unsettled? then FirstFor(replies, i) else slots[i])
    decreases |replies|
  {
    if replies != [] {
      CollectByIndex(OnMessage(slots, replies[0]), replies[1..], i);
    }
  }

  /** No two replies carry the same index. */
  ghost predicate DistinctIndices(replies: seq<Reply>) {
    forall a, b | 0 <= a < b < |replies| :: replies[a].index != replies[b].index
  }

  lemma {:induction false} FirstForMember(replies: seq<Reply>, r: Reply)
    requires DistinctIndices(replies) && r in replies && r.index >= 0
    ensures FirstFor(replies, r.index) == SettleOf(r)
    decreases |replies|
  {
    if replies[0] != r {
      var rest := replies[1..];
      assert r in rest;
      var k :| 0 <= k < |rest| && rest[k] == r;
      assert replies[0].index != replies[k + 1].index;
      assert DistinctIndices(rest) by {
        forall a, b | 0 <= a < b < |rest|
          ensures rest[a].index != rest[b].index
        {
          assert rest[a] == replies[a + 1] && rest[b] == replies[b + 1];
        }
      }
      FirstForMember(rest, r);
    }
  }

  lemma {:induction false} FirstForAbsent(replies: seq<Reply>, i: nat)
    requires forall r | r in replies :: r.index != i
    ensures FirstFor(replies, i) == Unsettled
    decreases |replies|
  {
    if replies != [] {
      assert replies[0] in replies;
      FirstForAbsent(replies[1..], i);
    }
  }

  /**
   * Reply order does not matter: two arrival orders of the same replies,
   * one per task, settle every promise the same way.
   */
  lemma ReplyOrderIrrelevant(slots: seq<Slot>, replies1: seq<Reply>, replies2: seq<Reply>)
    requires DistinctIndices(replies1) && DistinctIndices(replies2)
    requires multiset(replies1) == multiset(replies2)
    ensures Collect(slots, replies1) == Collect(slots, replies2)
  {
    var c1 := Collect(slots, replies1);
    var c2 := Collect(slots, replies2);
    forall i | 0 <= i < |slots|
      ensures c1[i] == c2[i]
    {
      CollectByIndex(slots, replies1, i);
      CollectByIndex(slots, replies2, i);
      if exists r | r in replies1 :: r.index == i {
        var r :| r in replies1 && r.index == i;
        assert r in multiset(replies2);
        FirstForMember(replies1, r);
        FirstForMember(replies2, r);
      } else {
        forall r | r in replies2
          ensures r.index != i
        {
          assert r in multiset(replies1);
        }
        FirstForAbsent(replies1, i);
        FirstForAbsent(replies2, i);
      }
    }
  }

  /** What `Promise.all(promises)` amounts to. */
  datatype Combined = Outstanding | AllFulfilled(values: seq<Datum>) | Rejected

  /**
   * `Promise.all`: rejects as soon as any promise has rejected; otherwise
   * fulfils, with the values in task order, once every promise has.
   */
  function Combine(slots: seq<Slot>): (c: Combined)
    ensures c == Rejected <==> exists i | 0 <= i < |slots| :: slots[i].Broken?
    ensures c.AllFulfilled? <==> forall i | 0 <= i < |slots| :: slots[i].Fulfilled?
    ensures c.AllFulfilled? ==>
      |c.values| == |slots| && forall i | 0 <= i < |slots| :: slots[i] == Fulfilled(c.values[i])
  {
    if exists i | 0 <= i < |slots| :: slots[i].Broken? then Rejected
    else if forall i | 0 <= i < |slots| :: slots[i].Fulfilled? then
      AllFulfilled(seq(|slots|, i requires 0 <= i < |slots| => slots[i].value))
    else Outstanding
  }

  /**
   * The combined result lists the results in task order, whatever order the
   * replies came in: result `i` is what the first reply tagged `i` carried.
   */
  lemma ResultsInTaskOrder(taskCount: nat, threadCount: nat, replies: seq<Reply>)
    requires threadCount > 0
    requires Combine(Collect(Posted(taskCount, threadCount), replies)).AllFulfilled?
    ensures var values := Combine(Collect(Posted(taskCount, threadCount), replies)).values;
      && |values| == taskCount
      && forall i | 0 <= i < taskCount :: FirstFor(replies, i) == Fulfilled(values[i])
  {
    var slots := Collect(Posted(taskCount, threadCount), replies);
    forall i | 0 <= i < taskCount
      ensures FirstFor(replies, i) == Fulfilled(slots[i].value)
    {
      CollectByIndex(Posted(taskCount, threadCount), replies, i);
    }
  }

  /** If the first reply for some task reports failure, the whole call rejects. */
  lemma FailedReplyRejects(taskCount: nat, threadCount: nat, replies: seq<Reply>, i: nat)
    requires i < taskCount && FirstFor(replies, i) == Broken
    ensures Combine(Collect(Posted(taskCount, threadCount), replies)) == Rejected
  {
    CollectByIndex(Posted(taskCount, threadCount), replies, i);
  }

  /** With no workers, a call with tasks rejects whatever arrives; one without tasks resolves to []. */
  lemma NoWorkersRejects(taskCount: nat, replies: seq<Reply>)
    ensures taskCount > 0 ==> Combine(Collect(Posted(taskCount, 0), replies)) == Rejected
    ensures taskCount == 0 ==> Combine(Collect(Posted(taskCount, 0), replies)) == AllFulfilled([])
  {
    if taskCount > 0 {
      CollectByIndex(Posted(taskCount, 0), replies, 0);
    }
  }

  // ---------------------------------------------------------------------
  // createSetTaskToMultithreading(threads, task)
  // ---------------------------------------------------------------------

  /** The resolve/reject pair of one submitted task; `owner` identifies the submitter closure. */
  datatype Handler = Handler(owner: nat, key: nat)

  /**
   * The module-level state shared by all submitters: the handler table
   * `promiseHandlers[task][key]` (a cleared slot is absent) and `prevThreads`.
   */
  datatype Registry = Registry(handlers: map<string, map<nat, Handler>>, prevThreads: ArrayArg)

  /** One submitter closure: its workers, task name, key counter `index` and `threadIndex`. */
  datatype Setter = Setter(id: nat, threads: seq<Worker>, task: string, index: nat, threadIndex: nat)

  /** The message `{ data, index, task }` posted to a worker. */
  datatype TaskMessage = TaskMessage(worker: Worker, data: Datum, index: nat, task: string)

  /** The module state at load time: no handlers, and `prevThreads` the empty array. */
  const InitialRegistry := Registry(map[], Array([]))

  /** The handler slots of one task name. */
  function Slots(reg: Registry, task: string): map<nat, Handler> {
    if task in reg.handlers then reg.handlers[task] else map[]
  }

  /** The handler a reply tagged `task` and `index` reaches, if any. */
  function Route(reg: Registry, task: string, index: nat): Option<Handler> {
    if index in Slots(reg, task) then Some(Slots(reg, task)[index]) else None
  }

  datatype Created = Created(registry: Registry, setter: Setter, attached: bool)

  /**
   * `createSetTaskToMultithreading`: a fresh submitter with both counters at
   * zero; listeners are attached, and `prevThreads` replaced, only when the
   * worker array differs from the previous one.
   */
  function CreateSetTask(reg: Registry, id: nat, threads: seq<Worker>, task: string): (c: Created)
    ensures c.setter == Setter(id, threads, task, 0, 0)
    ensures c.registry.handlers == reg.handlers
    ensures c.attached <==> !IsEqualArray(Array(threads), reg.prevThreads)
    ensures c.attached ==> c.registry.prevThreads == Array(threads)
    ensures !c.attached ==> c.registry == reg && reg.prevThreads == Array(threads)
  {
    if !IsEqualArray(Array(threads), reg.prevThreads) then
      Created(reg.(prevThreads := Array(threads)), Setter(id, threads, task, 0, 0), true)
    else
      Created(reg, Setter(id, threads, task, 0, 0), false)
  }

  /** Building two submitters on the same workers attaches their listeners once. */
  lemma ListenersAttachedOnce(reg: Registry, id1: nat, id2: nat, threads: seq<Worker>, task1: string, task2: string)
    ensures var c1 := CreateSetTask(reg, id1, threads, task1);
            !CreateSetTask(c1.registry, id2, threads, task2).attached
  {
  }

  /** The next value of `threadIndex`: wrap to 0 after the last worker. */
  function NextThreadIndex(threadIndex: nat, n: nat): (r: nat)
    ensures threadIndex < n ==> r < n && r == (threadIndex + 1) % n
  {
    if threadIndex >= n - 1 then
      (if threadIndex < n then DivModUnique(threadIndex + 1, n, 1, 0); 0 else 0)
    else
      DivModUnique(threadIndex + 1, n, 0, threadIndex + 1); threadIndex + 1
  }

  /** `threadIndex` points at a worker, or stays 0 when there are none. */
  predicate ThreadIndexOk(s: Setter) {
    if |s.threads| == 0 then s.threadIndex == 0 else s.threadIndex < |s.threads|
  }

  datatype Submitted = Submitted(registry: Registry, setter: Setter, message: Option<TaskMessage>)

  /**
   * The submit function returned by `createSetTaskToMultithreading`: post to
   * `threads[threadIndex]`, advance `threadIndex` round robin, store the
   * task's handler under `promiseHandlers[task][index]` and increment
   * `index`. With no workers the post throws before `threadIndex` moves.
   */
  function Submit(reg: Registry, s: Setter, data: Datum): (r: Submitted)
    requires ThreadIndexOk(s)
    ensures ThreadIndexOk(r.setter)
    ensures r.setter == s.(index := r.setter.index, threadIndex := r.setter.threadIndex)
    ensures r.setter.index == s.index + 1
    ensures Slots(r.registry, s.task) == Slots(reg, s.task)[s.index := Handler(s.id, s.index)]
    ensures forall t | t != s.task :: Slots(r.registry, t) == Slots(reg, t)
    ensures r.registry.prevThreads == reg.prevThreads
    ensures |s.threads| == 0 ==> r.message == None && r.setter.threadIndex == s.threadIndex
    ensures |s.threads| > 0 ==>
      && r.message == Some(TaskMessage(s.threads[s.threadIndex], data, s.index, s.task))
      && (r.setter.threadIndex == 0 <==> s.threadIndex == |s.threads| - 1)
      && (r.setter.threadIndex != 0 ==> r.setter.threadIndex == s.threadIndex + 1)
  {
    var n := |s.threads|;
    var message := if s.threadIndex < n then Some(TaskMessage(s.threads[s.threadIndex], data, s.index, s.task)) else None;
    var threadIndex := if s.threadIndex < n then NextThreadIndex(s.threadIndex, n) else s.threadIndex;
    var handlers := reg.handlers[s.task := Slots(reg, s.task)[s.index := Handler(s.id, s.index)]];
    Submitted(reg.(handlers := handlers), s.(index := s.index + 1, threadIndex := threadIndex), message)
  }

  datatype Batch = Batch(registry: Registry, setter: Setter, messages: seq<Option<TaskMessage>>)

  /** Submitting several tasks one after another through one submitter. */
  function SubmitAll(reg: Registry, s: Setter, data: seq<Datum>): (b: Batch)
    requires ThreadIndexOk(s)
    ensures ThreadIndexOk(b.setter) && |b.messages| == |data|
    decreases |data|
  {
    if data == [] then Batch(reg, s, [])
    else
      var r := Submit(reg, s, data[0]);
      var rest := SubmitAll(r.registry, r.setter, data[1..]);
      Batch(rest.registry, rest.setter, [r.message] + rest.messages)
  }

  /** Through one submitter, a batch of `k` tasks moves `threadIndex` on by `k` modulo `n` and `index` by `k`. */
  lemma {:induction false} SubmitAllCounters(reg: Registry, s: Setter, data: seq<Datum>)
    requires |s.threads| > 0 && s.threadIndex < |s.threads|
    ensures var b := SubmitAll(reg, s, data);
      && b.setter.threadIndex == (s.threadIndex + |data|) % |s.threads|
      && b.setter.index == s.index + |data|
      && b.setter.threads == s.threads && b.setter.task == s.task
    decreases |data|
  {
    var n := |s.threads|;
    if data == [] {
      DivModUnique(s.threadIndex, n, 0, s.threadIndex);
    } else {
      var r := Submit(reg, s, data[0]);
      ModStep(s.threadIndex, n);
      DivModUnique(s.threadIndex, n, 0, s.threadIndex);
      SubmitAllCounters(r.registry, r.setter, data[1..]);
      ModShift(s.threadIndex + 1, |data| - 1, n);
    }
  }

  /**
   * Through one submitter, task `j` of a batch is posted to worker
   * `(threadIndex + j) % n` with key `index + j`, so `threadIndex` cycles
   * 0, 1, ..., n-1, 0, ... and the keys of one submitter never repeat.
   */
  lemma {:induction false} RoundRobinSubmit(reg: Registry, s: Setter, data: seq<Datum>)
    requires |s.threads| > 0 && s.threadIndex < |s.threads|
    ensures var b := SubmitAll(reg, s, data);
      forall j | 0 <= j < |data| :: b.messages[j] == RoundRobinMessage(s, data, j)
    decreases |data|
  {
    if data != [] {
      var r := Submit(reg, s, data[0]);
      var rest := SubmitAll(r.registry, r.setter, data[1..]);
      assert SubmitAll(reg, s, data).messages == [r.message] + rest.messages;
      assert r.setter == s.(index := s.index + 1, threadIndex := NextThreadIndex(s.threadIndex, |s.threads|));
      RoundRobinSubmit(r.registry, r.setter, data[1..]);
      RoundRobinStep(s, r.setter, data, r.message, rest.messages);
    }
  }

  /** The message round-robin dispatch sends for task `j` of a batch. */
  function RoundRobinMessage(s: Setter, data: seq<Datum>, j: nat): Option<TaskMessage>
    requires |s.threads| > 0 && j < |data|
  {
    Some(TaskMessage(s.threads[(s.threadIndex + j) % |s.threads|], data[j], s.index + j, s.task))
  }

  /** The inductive step of `RoundRobinSubmit`: the first message followed by the rest, shifted by one. */
  lemma RoundRobinStep(s: Setter, next: Setter, data: seq<Datum>, first: Option<TaskMessage>, rest: seq<Option<TaskMessage>>)
    requires |s.threads| > 0 && s.threadIndex < |s.threads| && data != []
    requires next == s.(index := s.index + 1, threadIndex := NextThreadIndex(s.threadIndex, |s.threads|))
    requires first == Some(TaskMessage(s.threads[s.threadIndex], data[0], s.index, s.task))
    requires |rest| == |data| - 1
    requires forall j | 0 <= j < |rest| :: rest[j] == RoundRobinMessage(next, data[1..], j)
    ensures forall j | 0 <= j < |data| :: ([first] + rest)[j] == RoundRobinMessage(s, data, j)
  {
    var n := |s.threads|;
    NextThreadIndexShift(s.threadIndex, n, 0);
    forall j | 1 <= j < |data|
      ensures ([first] + rest)[j] == RoundRobinMessage(s, data, j)
    {
      assert ([first] + rest)[j] == rest[j - 1];
      assert data[1..][j - 1] == data[j];
      NextThreadIndexShift(s.threadIndex, n, j - 1);
    }
  }

  /** Counting `k` workers on from the next thread index is counting `k + 1` from this one. */
  lemma NextThreadIndexShift(t: nat, n: nat, k: nat)
    requires t < n
    ensures (t + 0) % n == t
    ensures (NextThreadIndex(t, n) + k) % n == (t + 1 + k) % n
  {
    DivModUnique(t, n, 0, t);
    ModStep(t, n);
    ModShift(t + 1, k, n);
  }

  /**
   * After a batch through one submitter, each key it assigned routes a reply
   * to the handler stored for that key.
   */
  lemma {:induction false} SubmitAllStoresHandlers(reg: Registry, s: Setter, data: seq<Datum>)
    requires ThreadIndexOk(s)
    ensures var b := SubmitAll(reg, s, data);
      forall key | s.index <= key < s.index + |data| ::
        Route(b.registry, s.task, key) == Some(Handler(s.id, key))
    decreases |data|
  {
    if data != [] {
      var r := Submit(reg, s, data[0]);
      SubmitAllStoresHandlers(r.registry, r.setter, data[1..]);
      KeyKeptBySubmitAll(r.registry, r.setter, data[1..], s.index);
    }
  }

  lemma ModShift(a: nat, k: nat, n: nat)
    requires n > 0
    ensures (a % n + k) % n == (a + k) % n
  {
    DivModUnique(a + k, n, a / n + (a % n + k) / n, (a % n + k) % n);
  }

  /** Later submissions of a submitter never touch a key below its counter. */
  lemma {:induction false} KeyKeptBySubmitAll(reg: Registry, s: Setter, data: seq<Datum>, key: nat)
    requires ThreadIndexOk(s) && key < s.index
    ensures Route(SubmitAll(reg, s, data).registry, s.task, key) == Route(reg, s.task, key)
    decreases |data|
  {
    if data != [] {
      var r := Submit(reg, s, data[0]);
      KeyKeptBySubmitAll(r.registry, r.setter, data[1..], key);
    }
  }

  /**
   * The `finally` of a submitted task as written: it clears the slot at the
   * submitter's counter `index` when the task settles, not the task's own key.
   */
  function CleanupAsWritten(reg: Registry, s: Setter): (r: Registry)
    ensures Slots(r, s.task) == Slots(reg, s.task) - {s.index}
    ensures forall t | t != s.task :: Slots(r, t) == Slots(reg, t)
  {
    reg.(handlers := reg.handlers[s.task := Slots(reg, s.task) - {s.index}])
  }

  /**
   * As written, a settled task's handler is never cleared: after a submit
   * and its settlement the task's own slot still holds its handler, and the
   * slot cleared is the next, unused key.
   */
  lemma CleanupMissesOwnSlot(reg: Registry, s: Setter, data: Datum)
    requires ThreadIndexOk(s)
    ensures var r := Submit(reg, s, data);
            var c := CleanupAsWritten(r.registry, r.setter);
            && Route(c, s.task, s.index) == Some(Handler(s.id, s.index))
            && Route(c, s.task, s.index + 1) == None
  {
  }

  /** The `finally` corrected: it clears the settled task's own key. */
  function Cleanup(reg: Registry, task: string, key: nat): (r: Registry)
    ensures Route(r, task, key) == None
    ensures forall k | k != key :: Route(r, task, k) == Route(reg, task, k)
    ensures forall t | t != task :: Slots(r, t) == Slots(reg, t)
  {
    reg.(handlers := reg.handlers[task := Slots(reg, task) - {key}])
  }

  /** Corrected, submitting a task on a free key and settling it restores the task's slots. */
  lemma SubmitThenCleanupRestores(reg: Registry, s: Setter, data: Datum)
    requires ThreadIndexOk(s) && s.index !in Slots(reg, s.task)
    ensures var r := Submit(reg, s, data);
            Slots(Cleanup(r.registry, s.task, s.index), s.task) == Slots(reg, s.task)
  {
  }

  /**
   * As written, two submitters for the same task name both start their keys
   * at 0: the second overwrites the first's handler, and the worker's reply
   * to the first task (tagged with key 0) settles the second task's promise.
   */
  lemma SameTaskSubmittersCollide(threads: seq<Worker>, d1: Datum, d2: Datum)
    requires |threads| > 0
    ensures
      var reg := InitialRegistry;
      var a := CreateSetTask(reg, 1, threads, "hash");
      var b := CreateSetTask(a.registry, 2, threads, "hash");
      var r1 := Submit(b.registry, a.setter, d1);
      var r2 := Submit(r1.registry, b.setter, d2);
      && r1.message.Some? && r1.message.value.index == 0
      && Route(r2.registry, "hash", r1.message.value.index) == Some(Handler(2, 0))
  {
  }

  /** The handler table with one key counter per task name, shared by every submitter. */
  datatype KeyedRegistry = KeyedRegistry(handlers: map<string, map<nat, Handler>>, counters: map<string, nat>)

  function KeyedSlots(reg: KeyedRegistry, task: string): map<nat, Handler> {
    if task in reg.handlers then reg.handlers[task] else map[]
  }

  function Counter(reg: KeyedRegistry, task: string): nat {
    if task in reg.counters then reg.counters[task] else 0
  }

  /** Every stored key of a task lies below that task's counter. */
  ghost predicate KeysBelowCounters(reg: KeyedRegistry) {
    forall t, k | t in reg.handlers && k in reg.handlers[t] :: k < Counter(reg, t)
  }

  datatype KeyedSubmitted = KeyedSubmitted(registry: KeyedRegistry, setter: Setter, key: nat, message: Option<TaskMessage>)

  /**
   * Submission corrected: the key comes from the task name's shared counter,
   * so keys are unique per task name across all submitters; posting and
   * `threadIndex` are as written.
   */
  function SubmitKeyed(reg: KeyedRegistry, s: Setter, data: Datum): (r: KeyedSubmitted)
    requires ThreadIndexOk(s)
    ensures ThreadIndexOk(r.setter)
    ensures r.key == Counter(reg, s.task) && Counter(r.registry, s.task) == r.key + 1
  {
    var key := Counter(reg, s.task);
    var n := |s.threads|;
    var message := if s.threadIndex < n then Some(TaskMessage(s.threads[s.threadIndex], data, key, s.task)) else None;
    var threadIndex := if s.threadIndex < n then NextThreadIndex(s.threadIndex, n) else s.threadIndex;
    var handlers := reg.handlers[s.task := KeyedSlots(reg, s.task)[key := Handler(s.id, key)]];
    KeyedSubmitted(KeyedRegistry(handlers, reg.counters[s.task := key + 1]),
                   s.(index := key + 1, threadIndex := threadIndex), key, message)
  }

  /**
   * With shared counters a submission never overwrites a live handler, keeps
   * every other handler in place, and its reply reaches its own handler.
   */
  lemma SubmitKeyedNeverOverwrites(reg: KeyedRegistry, s: Setter, data: Datum)
    requires ThreadIndexOk(s) && KeysBelowCounters(reg)
    ensures var r := SubmitKeyed(reg, s, data);
      && KeysBelowCounters(r.registry)
      && r.key !in KeyedSlots(reg, s.task)
      && KeyedSlots(r.registry, s.task) == KeyedSlots(reg, s.task)[r.key := Handler(s.id, r.key)]
      && forall t | t != s.task :: KeyedSlots(r.registry, t) == KeyedSlots(reg, t)
  {
  }
}

=== FILE: optional.dfy ===
/** A value that may be missing: JavaScript's `undefined` next to a value. */
module Optional {

  datatype Option<+T> = None | Some(value: T)
}

=== FILE: progress.dfy ===
/**
 * The progress list: one row per selected file, rewritten copy-on-write by
 * `updateProgressList` and handed in full to `handleProcess`.
 */
module Progress {

  import opened Optional

  /** Status of one upload, the union of every status the uploader uses. */
  datatype Status = Initialization | Waiting | Uploading | Suspended | Failure | Completed | Cancel

  /**
   * Progress as the exact fraction `num / den` that `computeProgress` rounds to
   * four decimals; `den == 0` is JavaScript's `0 / 0`, i.e. NaN.
   */
  datatype Ratio = Ratio(num: nat, den: nat)

  /** The fraction is exactly one. */
  predicate IsWhole(r: Ratio) {
    r.den > 0 && r.num == r.den
  }

  /** The fraction is a number strictly below one. */
  predicate BelowWhole(r: Ratio) {
    r.num < r.den
  }

  /** `computeProgress(start)`: the share of the file's chunks before `start`. */
  function ComputeProgress(start: nat, length: nat): (r: Ratio)
    ensures r.num == start && r.den == length
    ensures IsWhole(r) <==> 0 < length == start
    ensures BelowWhole(r) <==> start < length
  {
    Ratio(start, length)
  }

  /** The selected file a row belongs to. */
  datatype FileRef = FileRef(id: nat, size: nat)

  /**
   * One `UploaderData` row. `controls` records whether `pause` and `resume`
   * have been attached to it.
   */
  datatype Entry = Entry(status: Status, progress: Ratio, file: FileRef, controls: bool)

  /** A `Partial<UploaderData>`: the fields that are present overwrite the row's. */
  datatype Patch = Patch(status: Option<Status>, progress: Option<Ratio>, controls: Option<bool>)

  function Pick<T>(current: T, given: Option<T>): T {
    if given.Some? then given.value else current
  }

  /** The object spread `{ ...entry, ...patch }`. */
  function Merge(e: Entry, p: Patch): Entry {
    Entry(Pick(e.status, p.status), Pick(e.progress, p.progress), e.file, Pick(e.controls, p.controls))
  }

  /** Two spreads in a row act as one spread of the later patch over the earlier. */
  function Then(p: Patch, q: Patch): Patch {
    Patch(Later(p.status, q.status), Later(p.progress, q.progress), Later(p.controls, q.controls))
  }

  function Later<T>(first: Option<T>, second: Option<T>): Option<T> {
    if second.Some? then second else first
  }

  /**
   * `updateProgressList(index, patch)`: row `index` takes the fields present
   * in the patch and keeps all its others; every other row is left alone.
   */
  function UpdateProgressList(list: seq<Entry>, index: nat, p: Patch): (r: seq<Entry>)
    requires index < |list|
    ensures |r| == |list|
    ensures forall j | 0 <= j < |list| && j != index :: r[j] == list[j]
    ensures r[index].status == (if p.status.Some? then p.status.value else list[index].status)
    ensures r[index].progress == (if p.progress.Some? then p.progress.value else list[index].progress)
    ensures r[index].controls == (if p.controls.Some? then p.controls.value else list[index].controls)
    ensures r[index].file == list[index].file
  {
    list[index := Merge(list[index], p)]
  }

  /** Applying two patches one after the other equals applying their spread. */
  lemma UpdateComposes(list: seq<Entry>, index: nat, p: Patch, q: Patch)
    requires index < |list|
    ensures UpdateProgressList(UpdateProgressList(list, index, p), index, q)
         == UpdateProgressList(list, index, Then(p, q))
  {
  }

  /** Re-applying a patch changes nothing. */
  lemma UpdateIdempotent(list: seq<Entry>, index: nat, p: Patch)
    requires index < |list|
    ensures var once := UpdateProgressList(list, index, p);
            UpdateProgressList(once, index, p) == once
  {
  }

  /** `createUploaderData(index)`: the row a file starts with. */
  function InitialEntry(file: FileRef): (e: Entry)
    ensures e.status == Initialization && e.file == file && e.progress == Ratio(0, 1) && !e.controls
    ensures BelowWhole(e.progress)
  {
    Entry(Initialization, Ratio(0, 1), file, false)
  }
}

=== FILE: session.dfy ===
/**
 * One file's upload: the promise built per file in `handleChange`, with its
 * closure variables `_retryCount`, `suspended`, `sliceStart` and
 * `customParams`, driven by `autoUpload`, `handleFail`, `pause` and `resume`.
 *
 * The asynchronous `upload` transport is replaced by events: every call of
 * `upload` is recorded as in flight, and an event later settles one in-flight
 * call as succeeded (with the value the promise resolved to) or failed.
 */
module Session {

  import opened Optional
  import opened Chunking
  import opened Progress

  /** The opaque value `upload` resolves with; the next call receives it as `customParams`. */
  datatype Token = Token(id: nat)

  /** The options one file's upload reads. */
  datatype Config = Config(chunksNumber: nat, retryCount: nat)

  /** One call of `upload`: its `uploadParams` and the `customParams` it was passed. */
  datatype Call = Call(chunks: seq<Chunk>, start: nat, end: int, size: nat, params: Option<Token>)

  /** The settlement of the file's promise; a promise settles at most once. */
  datatype Outcome = Pending | Resolved(value: bool) | Rejected(offset: nat)

  /** The promise has not resolved with anything but `true`. */
  predicate ResolvesTrue(o: Outcome) {
    o.Resolved? ==> o.value
  }

  function Settle(o: Outcome, v: Outcome): (r: Outcome)
    ensures o.Pending? ==> r == v
    ensures !o.Pending? ==> r == o
  {
    if o.Pending? then v else o
  }

  /** The closure state of one file's upload. */
  datatype Vars = Vars(
    chunks: seq<Chunk>,     // this file's chunk list; its length is `length`
    retries: nat,           // `_retryCount`
    suspended: bool,        // set by `pause`, cleared by `resume`
    sliceStart: nat,        // the committed offset, in chunks
    params: Option<Token>,  // `customParams`
    inFlight: seq<Call>,    // calls of `upload` not yet settled
    outcome: Outcome)       // the file's promise

  /**
   * What an event leaves behind: the progress list, the closure state, and
   * the lists handed to `handleProcess`, in the order they were handed over.
   */
  datatype Step = Step(list: seq<Entry>, vars: Vars, reports: seq<seq<Entry>>)

  /**
   * The closure state when the file's promise is created: no retries yet,
   * not paused, nothing committed, no `customParams`, nothing in flight and
   * the promise pending.
   */
  function Fresh(chunks: seq<Chunk>): (v: Vars)
    ensures v.chunks == chunks && v.retries == 0 && !v.suspended && v.sliceStart == 0
    ensures v.params == None && v.inFlight == [] && v.outcome == Pending
  {
    Vars(chunks, 0, false, 0, None, [], Pending)
  }

  function RemoveAt(calls: seq<Call>, k: nat): (r: seq<Call>)
    requires k < |calls|
    ensures |r| == |calls| - 1
  {
    calls[..k] + calls[k + 1..]
  }

  /**
   * The call `autoUpload(start)` makes: the chunks with indices from `start`
   * to `end = start + chunksNumber - 1` that exist, the file's chunk count as
   * `size`, and the current `customParams`.
   */
  function UploadCall(cfg: Config, v: Vars, start: nat): (c: Call)
    requires start < |v.chunks|
    ensures c.start == start && c.end == start + cfg.chunksNumber - 1
    ensures c.size == |v.chunks| && c.params == v.params
    ensures c.start + |c.chunks| == Min(c.end + 1, |v.chunks|)
    ensures forall j | 0 <= j < |c.chunks| :: c.chunks[j] == v.chunks[c.start + j]
  {
    var nextStart := start + cfg.chunksNumber;
    Call(v.chunks[start..Min(nextStart, |v.chunks|)], start, nextStart - 1, |v.chunks|, v.params)
  }

  /**
   * `autoUpload(start)`: past the last chunk the file is completed, its
   * committed offset is the chunk count and its promise resolves `true`;
   * otherwise one call of `upload` for the batch at `start` is put in flight
   * and nothing else changes.
   */
  function AutoUpload(cfg: Config, list: seq<Entry>, index: nat, v: Vars, start: nat): (r: Step)
    requires index < |list|
    ensures |r.list| == |list|
    ensures forall j | 0 <= j < |list| && j != index :: r.list[j] == list[j]
    ensures start >= |v.chunks| ==>
      && r.list[index] == list[index].(status := Completed, progress := Ratio(|v.chunks|, |v.chunks|))
      && r.vars == v.(sliceStart := |v.chunks|, outcome := Settle(v.outcome, Resolved(true)))
      && r.reports == [r.list]
    ensures start < |v.chunks| ==>
      && r.list == list && r.reports == []
      && r.vars == v.(inFlight := v.inFlight + [UploadCall(cfg, v, start)])
  {
    var length := |v.chunks|;
    if start >= length then
      var list' := UpdateProgressList(list, index, Patch(Some(Completed), Some(ComputeProgress(length, length)), None));
      Step(list', v.(sliceStart := length, outcome := Settle(v.outcome, Resolved(true))), [list'])
    else
      Step(list, v.(inFlight := v.inFlight + [UploadCall(cfg, v, start)]), [])
  }

  /**
   * The body of the file's promise: attach `pause`/`resume` to the row, mark
   * it uploading with progress 0, and run `autoUpload(0)`.
   */
  function Begin(cfg: Config, list: seq<Entry>, index: nat, chunks: seq<Chunk>): (r: Step)
    requires index < |list|
    ensures |r.list| == |list|
    ensures forall j | 0 <= j < |list| && j != index :: r.list[j] == list[j]
    ensures r.reports != [] && r.list == r.reports[|r.reports| - 1]
    ensures r.reports[0] == list[index := list[index].(controls := true, status := Uploading, progress := Ratio(0, 1))]
    ensures chunks != [] ==>
      && r.list[index] == list[index].(controls := true, status := Uploading, progress := Ratio(0, 1))
      && r.vars == Fresh(chunks).(inFlight := [UploadCall(cfg, Fresh(chunks), 0)])
      && r.reports == [r.list]
    ensures chunks == [] ==>
      && r.list[index] == list[index].(controls := true, status := Completed, progress := Ratio(0, 0))
      && r.vars == Fresh(chunks).(outcome := Resolved(true))
      && |r.reports| == 2
  {
    var list1 := UpdateProgressList(list, index, Patch(None, None, Some(true)));
    var list2 := UpdateProgressList(list1, index, Patch(Some(Uploading), Some(Ratio(0, 1)), None));
    var r := AutoUpload(cfg, list2, index, Fresh(chunks), 0);
    Step(r.list, r.vars, [list2] + r.reports)
  }

  /**
   * The `then` branch of the call `k` in flight: the retry counter resets and
   * `customParams` takes the resolved value even while paused; when paused
   * nothing else changes, otherwise the committed offset advances by
   * `chunksNumber`, the row says uploading, and `autoUpload` continues there.
   */
  function Succeed(cfg: Config, list: seq<Entry>, index: nat, v: Vars, k: nat, data: Token): (r: Step)
    requires index < |list| && k < |v.inFlight|
    ensures |r.list| == |list|
    ensures forall j | 0 <= j < |list| && j != index :: r.list[j] == list[j]
    ensures r.vars.retries == 0 && r.vars.params == Some(data)
    ensures r.vars.chunks == v.chunks && r.vars.suspended == v.suspended
    ensures v.suspended ==>
      r.list == list && r.reports == [] && r.vars.sliceStart == v.sliceStart
      && r.vars.inFlight == RemoveAt(v.inFlight, k) && r.vars.outcome == v.outcome
    ensures !v.suspended ==>
      var next := v.inFlight[k].start + cfg.chunksNumber;
      && r.reports != [] && r.list == r.reports[|r.reports| - 1]
      && r.reports[0] == list[index := list[index].(status := Uploading, progress := Ratio(next, |v.chunks|))]
      && (next < |v.chunks| ==>
            && r.reports == [r.list] && r.vars.sliceStart == next
            && r.vars.inFlight == RemoveAt(v.inFlight, k) + [UploadCall(cfg, r.vars, next)]
            && r.vars.outcome == v.outcome)
      && (next >= |v.chunks| ==>
            && |r.reports| == 2
            && r.list[index] == list[index].(status := Completed, progress := Ratio(|v.chunks|, |v.chunks|))
            && r.vars.sliceStart == |v.chunks|
            && r.vars.inFlight == RemoveAt(v.inFlight, k)
            && r.vars.outcome == Settle(v.outcome, Resolved(true)))
  {
    var call := v.inFlight[k];
    var v1 := v.(inFlight := RemoveAt(v.inFlight, k), retries := 0, params := Some(data));
    if v.suspended then
      Step(list, v1, [])
    else
      var nextStart := call.start + cfg.chunksNumber;
      var list1 := UpdateProgressList(list, index, Patch(Some(Uploading), Some(ComputeProgress(nextStart, |v.chunks|)), None));
      var r := AutoUpload(cfg, list1, index, v1.(sliceStart := nextStart), nextStart);
      Step(r.list, r.vars, [list1] + r.reports)
  }

  /**
   * `handleFail` for the call `k` in flight, which does not look at
   * `suspended`: below the retry limit the counter increments and the same
   * offset is uploaded again; at the limit the row says failure with
   * progress at the failing offset, the committed offset is set to it and
   * the promise rejects with it.
   */
  function Fail(cfg: Config, list: seq<Entry>, index: nat, v: Vars, k: nat): (r: Step)
    requires index < |list| && k < |v.inFlight|
    ensures |r.list| == |list|
    ensures forall j | 0 <= j < |list| && j != index :: r.list[j] == list[j]
    ensures r.vars.chunks == v.chunks && r.vars.suspended == v.suspended && r.vars.params == v.params
    ensures
      var start := v.inFlight[k].start;
      && (v.retries < cfg.retryCount && start < |v.chunks| ==>
            && r.list == list && r.reports == []
            && r.vars.retries == v.retries + 1 && r.vars.sliceStart == v.sliceStart
            && r.vars.inFlight == RemoveAt(v.inFlight, k) + [UploadCall(cfg, v, start)]
            && r.vars.outcome == v.outcome)
      && (v.retries < cfg.retryCount && start >= |v.chunks| ==>
            && r.list[index] == list[index].(status := Completed, progress := Ratio(|v.chunks|, |v.chunks|))
            && r.reports == [r.list]
            && r.vars.retries == v.retries + 1 && r.vars.sliceStart == |v.chunks|
            && r.vars.inFlight == RemoveAt(v.inFlight, k)
            && r.vars.outcome == Settle(v.outcome, Resolved(true)))
      && (v.retries >= cfg.retryCount ==>
            && r.list[index] == list[index].(status := Failure, progress := Ratio(start, |v.chunks|))
            && r.reports == [r.list]
            && r.vars.retries == v.retries && r.vars.sliceStart == start
            && r.vars.inFlight == RemoveAt(v.inFlight, k)
            && r.vars.outcome == Settle(v.outcome, Rejected(start)))
  {
    var start := v.inFlight[k].start;
    var v1 := v.(inFlight := RemoveAt(v.inFlight, k));
    if v.retries < cfg.retryCount then
      AutoUpload(cfg, list, index, v1.(retries := v.retries + 1), start)
    else
      var list1 := UpdateProgressList(list, index, Patch(Some(Failure), Some(ComputeProgress(start, |v.chunks|)), None));
      Step(list1, v1.(sliceStart := start, outcome := Settle(v.outcome, Rejected(start))), [list1])
  }

  /**
   * `pause()`: always sets `suspended`; only an uploading row becomes
   * suspended, with progress at the committed offset.
   */
  function Pause(list: seq<Entry>, index: nat, v: Vars): (r: Step)
    requires index < |list|
    ensures |r.list| == |list|
    ensures forall j | 0 <= j < |list| && j != index :: r.list[j] == list[j]
    ensures r.vars == v.(suspended := true)
    ensures list[index].status == Uploading ==>
      && r.list[index] == list[index].(status := Suspended, progress := Ratio(v.sliceStart, |v.chunks|))
      && r.reports == [r.list]
    ensures list[index].status != Uploading ==> r.list == list && r.reports == []
  {
    var v1 := v.(suspended := true);
    if list[index].status == Uploading then
      var list1 := UpdateProgressList(list, index, Patch(Some(Suspended), Some(ComputeProgress(v.sliceStart, |v.chunks|)), None));
      Step(list1, v1, [list1])
    else
      Step(list, v1, [])
  }

  /** `resume()` acts only on a suspended or failed row. */
  predicate Resumable(e: Entry) {
    e.status == Suspended || e.status == Failure
  }

  /**
   * `resume()` as the source writes it: from suspended or failure the retry
   * counter resets, `suspended` clears, the row says uploading and
   * `autoUpload` restarts at the committed offset, whether or not a call is
   * still in flight.
   */
  function ResumeAsWritten(cfg: Config, list: seq<Entry>, index: nat, v: Vars): (r: Step)
    requires index < |list|
    ensures |r.list| == |list|
    ensures forall j | 0 <= j < |list| && j != index :: r.list[j] == list[j]
    ensures !Resumable(list[index]) ==> r == Step(list, v, [])
    ensures Resumable(list[index]) ==>
      && r.reports != [] && r.list == r.reports[|r.reports| - 1]
      && r.reports[0] == list[index := list[index].(status := Uploading)]
    ensures Resumable(list[index]) && v.sliceStart < |v.chunks| ==>
      && r.list[index] == list[index].(status := Uploading) && |r.reports| == 1
      && r.vars == v.(retries := 0, suspended := false, inFlight := r.vars.inFlight)
      && r.vars.inFlight == v.inFlight + [UploadCall(cfg, v, v.sliceStart)]
    ensures Resumable(list[index]) && v.sliceStart >= |v.chunks| ==>
      && r.list[index] == list[index].(status := Completed, progress := Ratio(|v.chunks|, |v.chunks|)) && |r.reports| == 2
      && r.vars == v.(retries := 0, suspended := false, sliceStart := |v.chunks|,
                      outcome := Settle(v.outcome, Resolved(true)))
  {
    if Resumable(list[index]) then
      var v1 := v.(retries := 0, suspended := false);
      var list1 := UpdateProgressList(list, index, Patch(Some(Uploading), None, None));
      var r := AutoUpload(cfg, list1, index, v1, v.sliceStart);
      Step(r.list, r.vars, [list1] + r.reports)
    else
      Step(list, v, [])
  }

  /**
   * `resume()` corrected: as written, except that while a call is still in
   * flight no second one is started; that call's result continues the
   * upload once `suspended` is cleared.
   */
  function Resume(cfg: Config, list: seq<Entry>, index: nat, v: Vars): (r: Step)
    requires index < |list|
    ensures |r.list| == |list|
    ensures forall j | 0 <= j < |list| && j != index :: r.list[j] == list[j]
    ensures !Resumable(list[index]) ==> r == Step(list, v, [])
    ensures Resumable(list[index]) ==>
      && r.reports != [] && r.list == r.reports[|r.reports| - 1]
      && r.reports[0] == list[index := list[index].(status := Uploading)]
    ensures Resumable(list[index]) && (v.inFlight != [] || v.sliceStart < |v.chunks|) ==>
      && r.list[index] == list[index].(status := Uploading) && |r.reports| == 1
      && r.vars == v.(retries := 0, suspended := false, inFlight := r.vars.inFlight)
      && (v.inFlight != [] ==> r.vars.inFlight == v.inFlight)
      && (v.inFlight == [] ==> r.vars.inFlight == [UploadCall(cfg, v, v.sliceStart)])
    ensures Resumable(list[index]) && v.inFlight == [] && v.sliceStart >= |v.chunks| ==>
      && r.list[index] == list[index].(status := Completed, progress := Ratio(|v.chunks|, |v.chunks|)) && |r.reports| == 2
      && r.vars == v.(retries := 0, suspended := false, sliceStart := |v.chunks|,
                      outcome := Settle(v.outcome, Resolved(true)))
  {
    if Resumable(list[index]) then
      var v1 := v.(retries := 0, suspended := false);
      var list1 := UpdateProgressList(list, index, Patch(Some(Uploading), None, None));
      if v.inFlight != [] then
        Step(list1, v1, [list1])
      else
        var r := AutoUpload(cfg, list1, index, v1, v.sliceStart);
        Step(r.list, r.vars, [list1] + r.reports)
    else
      Step(list, v, [])
  }

  /** Something that can happen to one file's upload. */
  datatype Event = Succeeded(call: nat, data: Token) | Failed(call: nat) | PauseCalled | ResumeCalled

  /** Only a call in flight can settle. */
  predicate Enabled(v: Vars, ev: Event) {
    match ev
    case Succeeded(k, _) => k < |v.inFlight|
    case Failed(k) => k < |v.inFlight|
    case _ => true
  }

  /**
   * What an event hands to `handleProcess`: lists that differ from `list` at
   * row `index` only, the last being the new list; when nothing is handed
   * over the list is unchanged.
   */
  ghost predicate HandsOver(list: seq<Entry>, index: nat, r: Step) {
    && (r.reports == [] ==> r.list == list)
    && (r.reports != [] ==> r.list == r.reports[|r.reports| - 1])
    && forall q | q in r.reports :: |q| == |list| && forall j | 0 <= j < |list| && j != index :: q[j] == list[j]
  }

  function NextWith(cfg: Config, list: seq<Entry>, index: nat, v: Vars, ev: Event, corrected: bool): (r: Step)
    requires index < |list| && Enabled(v, ev)
    ensures |r.list| == |list|
    ensures forall j | 0 <= j < |list| && j != index :: r.list[j] == list[j]
  {
    match ev
    case Succeeded(k, data) => Succeed(cfg, list, index, v, k, data)
    case Failed(k) => Fail(cfg, list, index, v, k)
    case PauseCalled => Pause(list, index, v)
    case ResumeCalled =>
      if corrected then Resume(cfg, list, index, v) else ResumeAsWritten(cfg, list, index, v)
  }

  /** Every event, with either `resume`, hands over lists of that shape. */
  lemma NextHandsOver(cfg: Config, list: seq<Entry>, index: nat, v: Vars, ev: Event, corrected: bool)
    requires index < |list| && Enabled(v, ev)
    ensures HandsOver(list, index, NextWith(cfg, list, index, v, ev, corrected))
  {
    match ev
    case Succeeded(k, data) => SucceedHandsOver(cfg, list, index, v, k, data);
    case Failed(k) => FailHandsOver(cfg, list, index, v, k);
    case PauseCalled => PauseHandsOver(list, index, v);
    case ResumeCalled => ResumeHandsOver(cfg, list, index, v);
  }

  lemma SucceedHandsOver(cfg: Config, list: seq<Entry>, index: nat, v: Vars, k: nat, data: Token)
    requires index < |list| && k < |v.inFlight|
    ensures HandsOver(list, index, Succeed(cfg, list, index, v, k, data))
  {
  }

  lemma FailHandsOver(cfg: Config, list: seq<Entry>, index: nat, v: Vars, k: nat)
    requires index < |list| && k < |v.inFlight|
    ensures HandsOver(list, index, Fail(cfg, list, index, v, k))
  {
  }

  lemma PauseHandsOver(list: seq<Entry>, index: nat, v: Vars)
    requires index < |list|
    ensures HandsOver(list, index, Pause(list, index, v))
  {
  }

  lemma ResumeHandsOver(cfg: Config, list: seq<Entry>, index: nat, v: Vars)
    requires index < |list|
    ensures HandsOver(list, index, Resume(cfg, list, index, v))
    ensures HandsOver(list, index, ResumeAsWritten(cfg, list, index, v))
  {
  }

  /** One event of the corrected model. */
  function Next(cfg: Config, list: seq<Entry>, index: nat, v: Vars, ev: Event): (r: Step)
    requires index < |list| && Enabled(v, ev)
    ensures |r.list| == |list|
    ensures forall j | 0 <= j < |list| && j != index :: r.list[j] == list[j]
  {
    NextWith(cfg, list, index, v, ev, true)
  }

  /** One event as the source is written. */
  function NextAsWritten(cfg: Config, list: seq<Entry>, index: nat, v: Vars, ev: Event): (r: Step)
    requires index < |list| && Enabled(v, ev)
    ensures |r.list| == |list|
    ensures forall j | 0 <= j < |list| && j != index :: r.list[j] == list[j]
  {
    NextWith(cfg, list, index, v, ev, false)
  }
}

=== FILE: session_invariant.dfy ===
/**
 * What holds of one file's upload between events, in the corrected model
 * (`Session.Next`): at most one call in flight and it is the batch at the
 * committed offset, the offset never passes the chunk count or moves back,
 * the retry counter stays within `retryCount`, and the progress is one
 * exactly when the row says completed.
 */
module SessionInvariant {

  import opened Optional
  import opened Chunking
  import opened Progress
  import opened Session

  /** The invariant of one file's row `e` together with its closure state `v`. */
  ghost predicate RowInv(cfg: Config, e: Entry, v: Vars) {
    var len := |v.chunks|;
    && v.sliceStart <= len
    && v.retries <= cfg.retryCount
    && (v.inFlight == [] || (v.sliceStart < len && v.inFlight == [UploadCall(cfg, v, v.sliceStart)]))
    && (e.status == Uploading || e.status == Suspended || e.status == Failure || e.status == Completed)
    && (e.status == Uploading ==> !v.suspended && v.inFlight != [])
    && (e.status == Suspended ==> v.suspended && v.sliceStart < len)
    && (e.status == Failure ==> v.inFlight == [] && v.sliceStart < len && v.outcome.Rejected?)
    && (e.status == Completed ==>
          v.inFlight == [] && v.sliceStart == len && e.progress == Ratio(len, len) && !v.outcome.Pending?)
    && (v.outcome.Resolved? ==> e.status == Completed && v.outcome.value)
    && (e.status != Completed ==> BelowWhole(e.progress))
  }

  ghost predicate Inv(cfg: Config, list: seq<Entry>, index: nat, v: Vars) {
    index < |list| && RowInv(cfg, list[index], v)
  }

  /** The invariant holds once the file's promise body has run. */
  lemma BeginEstablishes(cfg: Config, list: seq<Entry>, index: nat, chunks: seq<Chunk>)
    requires index < |list|
    ensures var r := Begin(cfg, list, index, chunks);
            Inv(cfg, r.list, index, r.vars)
  {
  }

  /** Every event of the corrected model keeps the invariant. */
  lemma NextPreservesInv(cfg: Config, list: seq<Entry>, index: nat, v: Vars, ev: Event)
    requires Inv(cfg, list, index, v) && Enabled(v, ev)
    ensures var r := Next(cfg, list, index, v, ev);
            Inv(cfg, r.list, index, r.vars)
  {
    match ev
    case Succeeded(k, data) => SucceedPreservesInv(cfg, list, index, v, k, data);
    case Failed(k) => FailPreservesInv(cfg, list, index, v, k);
    case PauseCalled =>
    case ResumeCalled =>
  }

  /** A settled success keeps the invariant. */
  lemma SucceedPreservesInv(cfg: Config, list: seq<Entry>, index: nat, v: Vars, k: nat, data: Token)
    requires Inv(cfg, list, index, v) && k < |v.inFlight|
    ensures var r := Succeed(cfg, list, index, v, k, data);
            Inv(cfg, r.list, index, r.vars)
  {
  }

  /** A settled failure keeps the invariant. */
  lemma FailPreservesInv(cfg: Config, list: seq<Entry>, index: nat, v: Vars, k: nat)
    requires Inv(cfg, list, index, v) && k < |v.inFlight|
    ensures var r := Fail(cfg, list, index, v, k);
            Inv(cfg, r.list, index, r.vars)
  {
  }

  /** An event never moves the committed offset back. */
  lemma NextKeepsOffsetMonotone(cfg: Config, list: seq<Entry>, index: nat, v: Vars, ev: Event)
    requires Inv(cfg, list, index, v) && Enabled(v, ev)
    ensures Next(cfg, list, index, v, ev).vars.sliceStart >= v.sliceStart
  {
  }

  /** For a file with at least one chunk, its progress is one exactly when it is completed. */
  lemma ProgressWholeIffCompleted(cfg: Config, list: seq<Entry>, index: nat, v: Vars)
    requires Inv(cfg, list, index, v) && |v.chunks| > 0
    ensures IsWhole(list[index].progress) <==> list[index].status == Completed
  {
  }

  /** A sequence of events; one that is not enabled (a settlement of no call in flight) is skipped. */
  function Run(cfg: Config, list: seq<Entry>, index: nat, v: Vars, events: seq<Event>): (r: Step)
    requires index < |list|
    ensures |r.list| == |list|
    decreases |events|
  {
    if events == [] then Step(list, v, [])
    else
      var s := if Enabled(v, events[0]) then Next(cfg, list, index, v, events[0]) else Step(list, v, []);
      var t := Run(cfg, s.list, index, s.vars, events[1..]);
      Step(t.list, t.vars, s.reports + t.reports)
  }

  /**
   * Along any sequence of events the invariant holds, so there is never more
   * than one call in flight, and the committed offset never moves back.
   */
  lemma {:induction false} RunPreservesInv(cfg: Config, list: seq<Entry>, index: nat, v: Vars, events: seq<Event>)
    requires Inv(cfg, list, index, v)
    ensures var r := Run(cfg, list, index, v, events);
            && Inv(cfg, r.list, index, r.vars)
            && |r.vars.inFlight| <= 1
            && r.vars.sliceStart >= v.sliceStart
    decreases |events|
  {
    if events != [] {
      var s := if Enabled(v, events[0]) then Next(cfg, list, index, v, events[0]) else Step(list, v, []);
      if Enabled(v, events[0]) {
        NextPreservesInv(cfg, list, index, v, events[0]);
        NextKeepsOffsetMonotone(cfg, list, index, v, events[0]);
      }
      RunPreservesInv(cfg, s.list, index, s.vars, events[1..]);
    }
  }

  /** `count` failures in a row of the call in flight, stopping when none is in flight. */
  function FailTimes(cfg: Config, list: seq<Entry>, index: nat, v: Vars, count: nat): (r: Step)
    requires index < |list|
    ensures |r.list| == |list|
    decreases count
  {
    if count == 0 || v.inFlight == [] then Step(list, v, [])
    else
      var s := Fail(cfg, list, index, v, 0);
      var t := FailTimes(cfg, s.list, index, s.vars, count - 1);
      Step(t.list, t.vars, s.reports + t.reports)
  }

  /**
   * Retry bound: from an uploading row whose retry counter is `retries`, the
   * next `retryCount - retries` failures each retry the same offset, and the
   * one after them turns the row to failure at that offset and rejects the
   * promise with it. So with the counter at zero, `retryCount + 1`
   * consecutive failures at one offset are needed to fail.
   */
  lemma {:induction false} ConsecutiveFailures(cfg: Config, list: seq<Entry>, index: nat, v: Vars, count: nat)
    requires Inv(cfg, list, index, v) && list[index].status == Uploading
    requires count <= cfg.retryCount - v.retries + 1
    ensures var r := FailTimes(cfg, list, index, v, count);
      && Inv(cfg, r.list, index, r.vars)
      && r.vars.sliceStart == v.sliceStart
      && (count <= cfg.retryCount - v.retries ==>
            && r.list[index].status == Uploading
            && r.vars.retries == v.retries + count
            && r.vars.inFlight == [UploadCall(cfg, r.vars, v.sliceStart)]
            && r.vars.outcome == v.outcome)
      && (count == cfg.retryCount - v.retries + 1 ==>
            && r.list[index].status == Failure
            && r.list[index].progress == Ratio(v.sliceStart, |v.chunks|)
            && r.vars.inFlight == []
            && r.vars.outcome == Settle(v.outcome, Rejected(v.sliceStart)))
    decreases count
  {
    if count > 0 {
      var s := Fail(cfg, list, index, v, 0);
      NextPreservesInv(cfg, list, index, v, Failed(0));
      assert s == Next(cfg, list, index, v, Failed(0));
      if v.retries < cfg.retryCount {
        ConsecutiveFailures(cfg, s.list, index, s.vars, count - 1);
      } else {
        assert count == 1;
        assert FailTimes(cfg, s.list, index, s.vars, 0) == Step(s.list, s.vars, []);
      }
    }
  }

  /** Pausing while a call is in flight and resuming leaves exactly that one call in flight. */
  lemma PauseResumeKeepsOneCall(cfg: Config, list: seq<Entry>, index: nat, v: Vars)
    requires Inv(cfg, list, index, v) && list[index].status == Uploading
    ensures var p := Pause(list, index, v);
            var r := Resume(cfg, p.list, index, p.vars);
            r.vars.inFlight == v.inFlight && |r.vars.inFlight| == 1
            && r.list[index].status == Uploading && !r.vars.suspended
  {
  }

  /**
   * As written, `resume` after `pause` while a batch is in flight uploads the
   * same batch a second time: two calls at offset 0 are in flight at once,
   * and each starts its own chain of uploads.
   */
  lemma ResumeDuringBatchUploadsTwice()
    ensures
      var cfg := Config(1, 3);
      var list := [InitialEntry(FileRef(0, 20))];
      var b := Begin(cfg, list, 0, [Chunk(0, 10), Chunk(10, 20)]);
      var p := Pause(b.list, 0, b.vars);
      var r := ResumeAsWritten(cfg, p.list, 0, p.vars);
      && |r.vars.inFlight| == 2
      && r.vars.inFlight[0].start == 0 && r.vars.inFlight[1].start == 0
  {
  }

  /**
   * As written, a second chain started by `resume` can move the committed
   * offset back: with three chunks and one chunk per batch, the resumed call
   * at 0 and its follow-up at 1 succeed (offset 2), and then the older call
   * at 0 succeeds and sets the offset to 1.
   */
  lemma ResumeDuringBatchRollsBackOffset()
    ensures
      var cfg := Config(1, 3);
      var list := [InitialEntry(FileRef(0, 30))];
      var b := Begin(cfg, list, 0, [Chunk(0, 10), Chunk(10, 20), Chunk(20, 30)]);
      var p := Pause(b.list, 0, b.vars);
      var r := ResumeAsWritten(cfg, p.list, 0, p.vars);
      && |r.vars.inFlight| == 2
      && TwoChainsRollBack(cfg, r.list, r.vars)
      && CompletedRowReopens(cfg, r.list, r.vars)
  {
    var cfg := Config(1, 3);
    var b := Begin(cfg, [InitialEntry(FileRef(0, 30))], 0, [Chunk(0, 10), Chunk(10, 20), Chunk(20, 30)]);
    var p := Pause(b.list, 0, b.vars);
    var r := ResumeAsWritten(cfg, p.list, 0, p.vars);
    TwoCallsAtZeroRollBack(cfg, r.list, r.vars);
    TwoCallsAtZeroReopen(cfg, r.list, r.vars);
  }

  /**
   * From two calls at offset 0 in flight, the later one succeeds, then its
   * follow-up at 1, then the older one: the offset goes 1, 2 and back to 1,
   * and `handleProcess` is handed 2/3 and then 1/3.
   */
  ghost predicate TwoChainsRollBack(cfg: Config, list: seq<Entry>, v: Vars)
    requires |list| == 1 && |v.inFlight| == 2
  {
    var s1 := Succeed(cfg, list, 0, v, 1, Token(1));
    |s1.vars.inFlight| == 2 &&
    var s2 := Succeed(cfg, s1.list, 0, s1.vars, 1, Token(2));
    |s2.vars.inFlight| == 2 &&
    var s3 := Succeed(cfg, s2.list, 0, s2.vars, 0, Token(3));
    && s2.vars.sliceStart == 2
    && s3.vars.sliceStart == 1
    && s2.reports[0][0].progress == Ratio(2, 3)
    && s3.reports[0][0].progress == Ratio(1, 3)
  }

  lemma TwoCallsAtZeroRollBack(cfg: Config, list: seq<Entry>, v: Vars)
    requires cfg == Config(1, 3) && |list| == 1 && |v.chunks| == 3 && !v.suspended
    requires |v.inFlight| == 2 && v.inFlight[0].start == 0 && v.inFlight[1].start == 0
    ensures TwoChainsRollBack(cfg, list, v)
  {
  }


  /**
   * From two calls at offset 0 in flight, the later one and its follow-ups
   * at 1 and 2 succeed, so the file completes and its promise resolves
   * `true`; then the older call succeeds and the completed row is uploading
   * again at 1/3, with a new call in flight.
   */
  ghost predicate CompletedRowReopens(cfg: Config, list: seq<Entry>, v: Vars)
    requires |list| == 1 && |v.inFlight| == 2
  {
    var s1 := Succeed(cfg, list, 0, v, 1, Token(1));
    |s1.vars.inFlight| == 2 &&
    var s2 := Succeed(cfg, s1.list, 0, s1.vars, 1, Token(2));
    |s2.vars.inFlight| == 2 && CompletesThenReopens(cfg, s2.list, s2.vars)
  }

  /** The last two steps: the call at 2 completes the file, then the call at 0 reopens it. */
  ghost predicate CompletesThenReopens(cfg: Config, list: seq<Entry>, v: Vars)
    requires |list| == 1 && |v.inFlight| == 2
  {
    var s3 := Succeed(cfg, list, 0, v, 1, Token(3));
    |s3.vars.inFlight| == 1 &&
    var s4 := Succeed(cfg, s3.list, 0, s3.vars, 0, Token(4));
    && s3.list[0].status == Completed && s3.vars.outcome == Resolved(true)
    && s4.list[0].status == Uploading && s4.list[0].progress == Ratio(1, 3)
    && s4.vars.outcome == Resolved(true) && |s4.vars.inFlight| == 1
  }

  lemma TwoCallsAtZeroReopen(cfg: Config, list: seq<Entry>, v: Vars)
    requires cfg == Config(1, 3) && |list| == 1 && |v.chunks| == 3 && !v.suspended && v.outcome == Pending
    requires |v.inFlight| == 2 && v.inFlight[0].start == 0 && v.inFlight[1].start == 0
    ensures CompletedRowReopens(cfg, list, v)
  {
    var s1 := Succeed(cfg, list, 0, v, 1, Token(1));
    var s2 := Succeed(cfg, s1.list, 0, s1.vars, 1, Token(2));
    CallsAtZeroAndTwoReopen(cfg, s2.list, s2.vars);
  }

  lemma CallsAtZeroAndTwoReopen(cfg: Config, list: seq<Entry>, v: Vars)
    requires cfg == Config(1, 3) && |list| == 1 && |v.chunks| == 3 && !v.suspended && v.outcome == Pending
    requires |v.inFlight| == 2 && v.inFlight[0].start == 0 && v.inFlight[1].start == 2
    ensures CompletesThenReopens(cfg, list, v)
  {
  }

  /**
   * As written, the file's promise is resolved only with `true`: no event
   * settles it with `false`, whichever `resume` is used.
   */
  lemma NextAsWrittenResolvesTrue(cfg: Config, list: seq<Entry>, index: nat, v: Vars, ev: Event)
    requires index < |list| && Enabled(v, ev) && ResolvesTrue(v.outcome)
    ensures ResolvesTrue(NextAsWritten(cfg, list, index, v, ev).vars.outcome)
  {
    match ev
    case Succeeded(k, data) =>
    case Failed(k) =>
    case PauseCalled =>
    case ResumeCalled =>
  }

  /** A sequence of events of the program as written; an event for no call in flight is skipped. */
  function RunAsWritten(cfg: Config, list: seq<Entry>, index: nat, v: Vars, events: seq<Event>): (r: Step)
    requires index < |list|
    ensures |r.list| == |list|
    decreases |events|
  {
    if events == [] then Step(list, v, [])
    else
      var s := if Enabled(v, events[0]) then NextAsWritten(cfg, list, index, v, events[0]) else Step(list, v, []);
      var t := RunAsWritten(cfg, s.list, index, s.vars, events[1..]);
      Step(t.list, t.vars, s.reports + t.reports)
  }

  /**
   * From the promise body on, along any events of the program as written,
   * the file's promise never resolves with `false`, even in the states with
   * two calls in flight that the corrected model rules out.
   */
  lemma {:induction false} RunAsWrittenResolvesTrue(cfg: Config, list: seq<Entry>, index: nat, chunks: seq<Chunk>, events: seq<Event>)
    requires index < |list|
    ensures var b := Begin(cfg, list, index, chunks);
            ResolvesTrue(RunAsWritten(cfg, b.list, index, b.vars, events).vars.outcome)
  {
    var b := Begin(cfg, list, index, chunks);
    RunAsWrittenKeepsResolvesTrue(cfg, b.list, index, b.vars, events);
  }

  lemma {:induction false} RunAsWrittenKeepsResolvesTrue(cfg: Config, list: seq<Entry>, index: nat, v: Vars, events: seq<Event>)
    requires index < |list| && ResolvesTrue(v.outcome)
    ensures ResolvesTrue(RunAsWritten(cfg, list, index, v, events).vars.outcome)
    decreases |events|
  {
    if events != [] {
      var s := if Enabled(v, events[0]) then NextAsWritten(cfg, list, index, v, events[0]) else Step(list, v, []);
      if Enabled(v, events[0]) {
        NextAsWrittenResolvesTrue(cfg, list, index, v, events[0]);
      }
      RunAsWrittenKeepsResolvesTrue(cfg, s.list, index, s.vars, events[1..]);
    }
  }

  /**
   * `handleFail` ignores `suspended`: a paused file whose call fails below the
   * retry limit uploads again although it stays suspended.
   */
  lemma FailWhilePausedStillUploads(cfg: Config, list: seq<Entry>, index: nat, v: Vars)
    requires Inv(cfg, list, index, v) && list[index].status == Suspended
    requires v.inFlight != [] && v.retries < cfg.retryCount
    ensures var r := Fail(cfg, list, index, v, 0);
            && r.list[index].status == Suspended
            && r.vars.inFlight == [UploadCall(cfg, v, v.sliceStart)]
            && r.vars.retries == v.retries + 1
  {
  }

  /**
   * With `chunksNumber` 0 every batch is empty and `nextStart == start`: a
   * success reports the same offset and calls it again, so the file never
   * completes.
   */
  lemma ZeroBatchSizeNeverAdvances(cfg: Config, list: seq<Entry>, index: nat, v: Vars, k: nat, data: Token)
    requires cfg.chunksNumber == 0 && index < |list| && k < |v.inFlight| && !v.suspended
    requires v.inFlight[k].start < |v.chunks|
    ensures var r := Succeed(cfg, list, index, v, k, data);
            && r.vars.sliceStart == v.inFlight[k].start
            && r.list[index].status == Uploading
            && r.list[index].progress == Ratio(v.inFlight[k].start, |v.chunks|)
            && |r.vars.inFlight| == |v.inFlight|
            && r.vars.inFlight[|v.inFlight| - 1].start == v.inFlight[k].start
            && r.vars.inFlight[|v.inFlight| - 1].chunks == []
            && r.vars.outcome == v.outcome
  {
  }

  /**
   * When the last batch overshoots the chunk count, `handleProcess` is first
   * handed an uploading row whose progress exceeds one (3 of 2 chunks here)
   * before the completed row.
   */
  lemma LastBatchReportsProgressAboveOne()
    ensures
      var cfg := Config(3, 3);
      var list := [InitialEntry(FileRef(0, 20))];
      var b := Begin(cfg, list, 0, [Chunk(0, 10), Chunk(10, 20)]);
      var r := Succeed(cfg, b.list, 0, b.vars, 0, Token(7));
      && |r.reports| == 2
      && r.reports[0][0].status == Uploading && r.reports[0][0].progress == Ratio(3, 2)
      && r.reports[1][0].status == Completed && r.reports[1][0].progress == Ratio(2, 2)
  {
  }

  /**
   * With `retryCount` 3, four rejections at one offset fail the file, and
   * `resume` then uploads that offset again with the counter at zero.
   */
  lemma FourRejectionsThenResume(chunks: seq<Chunk>, list: seq<Entry>)
    requires |chunks| == 5 && |list| == 1
    ensures
      var cfg := Config(1, 3);
      var b := Begin(cfg, list, 0, chunks);
      var f := FailTimes(cfg, b.list, 0, b.vars, 4);
      var r := Resume(cfg, f.list, 0, f.vars);
      && f.list[0].status == Failure && f.vars.outcome == Rejected(0)
      && r.list[0].status == Uploading && r.vars.retries == 0
      && r.vars.inFlight == [UploadCall(cfg, f.vars, 0)]
  {
    var cfg := Config(1, 3);
    var b := Begin(cfg, list, 0, chunks);
    BeginEstablishes(cfg, list, 0, chunks);
    ConsecutiveFailures(cfg, b.list, 0, b.vars, 4);
  }
}

=== FILE: uploader.dfy ===
/**
 * The uploader around the per-file sessions: `setDefaultOptions`, the
 * `handleChange` handler that turns a file selection into one upload per
 * file sharing one progress list, and the final `finish` call.
 */
module Uploader {

  import opened Optional
  import opened Chunking
  import opened Progress
  import opened Session
  import opened SessionInvariant

  /** The options a caller may leave out; `None` is an absent property. */
  datatype Options = Options(
    sliceSize: Option<nat>,
    minSlicedFileSize: Option<int>,
    multithreadingUpload: Option<bool>,
    chunksNumber: Option<nat>,
    retryCount: Option<nat>)

  /** The options after defaults are filled in. */
  datatype FullOptions = FullOptions(
    sliceSize: nat,
    minSlicedFileSize: int,
    multithreadingUpload: bool,
    chunksNumber: nat,
    retryCount: nat)

  const Defaults: FullOptions := FullOptions(14000, 20000, true, 3, 3)

  /**
   * `setDefaultOptions`: every option the caller gives wins; every other one
   * takes its default (slices of 14,000 bytes, files of 20,000 bytes or more
   * are sliced, three chunks per request, three retries).
   */
  function SetDefaultOptions(o: Options): (f: FullOptions)
    ensures f.sliceSize == (if o.sliceSize.Some? then o.sliceSize.value else 14000)
    ensures f.minSlicedFileSize == (if o.minSlicedFileSize.Some? then o.minSlicedFileSize.value else 20000)
    ensures f.multithreadingUpload == (if o.multithreadingUpload.Some? then o.multithreadingUpload.value else true)
    ensures f.chunksNumber == (if o.chunksNumber.Some? then o.chunksNumber.value else 3)
    ensures f.retryCount == (if o.retryCount.Some? then o.retryCount.value else 3)
  {
    FullOptions(
      Pick(Defaults.sliceSize, o.sliceSize),
      Pick(Defaults.minSlicedFileSize, o.minSlicedFileSize),
      Pick(Defaults.multithreadingUpload, o.multithreadingUpload),
      Pick(Defaults.chunksNumber, o.chunksNumber),
      Pick(Defaults.retryCount, o.retryCount))
  }

  /** Every option given explicitly. */
  function Given(f: FullOptions): Options {
    Options(Some(f.sliceSize), Some(f.minSlicedFileSize), Some(f.multithreadingUpload),
            Some(f.chunksNumber), Some(f.retryCount))
  }

  /** Options that are all given pass through unchanged, and none given yields the defaults. */
  lemma DefaultsFillOnlyGaps(f: FullOptions)
    ensures SetDefaultOptions(Given(f)) == f
    ensures SetDefaultOptions(Options(None, None, None, None, None)) == Defaults
  {
  }

  function SessionConfig(opts: FullOptions): Config {
    Config(opts.chunksNumber, opts.retryCount)
  }

  /** All uploads of one selection: the shared progress list and one closure state per file. */
  datatype Uploader = Uploader(list: seq<Entry>, sessions: seq<Vars>)

  /** Every file's upload satisfies the session invariant. */
  ghost predicate Valid(cfg: Config, u: Uploader) {
    && |u.list| == |u.sessions|
    && forall i | 0 <= i < |u.sessions| :: RowInv(cfg, u.list[i], u.sessions[i])
  }

  /**
   * `handleChange` for a selection of files: every file is sliced, gets an
   * initial row, and its upload begins in selection order; a file with
   * chunks is then uploading with the batch at offset 0 in flight. The
   * lists handed to `handleProcess` meanwhile are returned in order.
   */
  method HandleChange(opts: FullOptions, files: seq<FileRef>) returns (u: Uploader, reports: seq<seq<Entry>>)
    requires forall i | 0 <= i < |files| :: SlicingTerminates(files[i].size, opts.sliceSize, opts.minSlicedFileSize)
    ensures |u.list| == |files| && |u.sessions| == |files|
    ensures Valid(SessionConfig(opts), u) && OnlyTrue(u)
    ensures |reports| >= |files| && (files != [] ==> reports[|reports| - 1] == u.list)
    ensures forall i | 0 <= i < |files| ::
      && IsSlicing(u.sessions[i].chunks, files[i].size, opts.sliceSize, opts.minSlicedFileSize)
      && u.list[i].file == files[i] && u.list[i].controls
    ensures forall i | 0 <= i < |files| && u.sessions[i].chunks != [] ::
      && u.list[i].status == Uploading
      && u.sessions[i].inFlight == [UploadCall(SessionConfig(opts), Fresh(u.sessions[i].chunks), 0)]
  {
    var cfg := SessionConfig(opts);
    var chunksList, list := SliceAll(opts, files);
    var sessions;
    list, sessions, reports := BeginAll(cfg, files, chunksList, list);
    u := Uploader(list, sessions);
    StartedAllValid(cfg, files, chunksList, list, sessions);
  }

  /** The first loop of `handleChange`: every file sliced, every row initial. */
  method SliceAll(opts: FullOptions, files: seq<FileRef>) returns (chunksList: seq<seq<Chunk>>, list: seq<Entry>)
    requires forall i | 0 <= i < |files| :: SlicingTerminates(files[i].size, opts.sliceSize, opts.minSlicedFileSize)
    ensures |chunksList| == |list| == |files|
    ensures forall j | 0 <= j < |files| ::
      && IsSlicing(chunksList[j], files[j].size, opts.sliceSize, opts.minSlicedFileSize)
      && list[j] == InitialEntry(files[j])
  {
    chunksList, list := [], [];
    while |chunksList| < |files|
      invariant |chunksList| <= |files| && |list| == |chunksList|
      invariant forall j | 0 <= j < |chunksList| ::
        IsSlicing(chunksList[j], files[j].size, opts.sliceSize, opts.minSlicedFileSize)
      invariant forall j | 0 <= j < |list| :: list[j] == InitialEntry(files[j])
    {
      var chunks := SliceFile(files[|chunksList|].size, opts.sliceSize, opts.minSlicedFileSize);
      list := list + [InitialEntry(files[|chunksList|])];
      chunksList := chunksList + [chunks];
    }
  }

  /** The second loop of `handleChange`: `beginUpload` for every file in order. */
  method BeginAll(cfg: Config, files: seq<FileRef>, chunksList: seq<seq<Chunk>>, list0: seq<Entry>)
    returns (list: seq<Entry>, sessions: seq<Vars>, reports: seq<seq<Entry>>)
    requires Started(cfg, files, chunksList, list0, [])
    ensures Started(cfg, files, chunksList, list, sessions) && |sessions| == |files|
    ensures |reports| >= |files| && (files != [] ==> reports[|reports| - 1] == list)
  {
    list, sessions, reports := list0, [], [];
    while |sessions| < |files|
      invariant |reports| >= |sessions| && (sessions != [] ==> reports[|reports| - 1] == list)
      invariant Started(cfg, files, chunksList, list, sessions)
    {
      var i := |sessions|;
      var r := Begin(cfg, list, i, chunksList[i]);
      BeginExtendsStarted(cfg, files, chunksList, list, sessions);
      list := r.list;
      sessions := sessions + [r.vars];
      reports := reports + r.reports;
    }
  }

  /**
   * The state of `handleChange` after its first `|sessions|` calls to
   * `beginUpload`: those rows are started, the others are still initial.
   */
  ghost predicate Started(cfg: Config, files: seq<FileRef>, chunksList: seq<seq<Chunk>>, list: seq<Entry>, sessions: seq<Vars>) {
    && |sessions| <= |files| == |list| == |chunksList|
    && (forall j | |sessions| <= j < |files| :: list[j] == InitialEntry(files[j]))
    && (forall j | 0 <= j < |sessions| ::
          && RowInv(cfg, list[j], sessions[j])
          && sessions[j].chunks == chunksList[j]
          && list[j].file == files[j] && list[j].controls
          && (chunksList[j] != [] ==>
                list[j].status == Uploading && sessions[j].inFlight == [UploadCall(cfg, Fresh(chunksList[j]), 0)]))
  }

  /** Starting the next file extends the started prefix by one row. */
  lemma BeginExtendsStarted(cfg: Config, files: seq<FileRef>, chunksList: seq<seq<Chunk>>, list: seq<Entry>, sessions: seq<Vars>)
    requires Started(cfg, files, chunksList, list, sessions) && |sessions| < |files|
    ensures var r := Begin(cfg, list, |sessions|, chunksList[|sessions|]);
            Started(cfg, files, chunksList, r.list, sessions + [r.vars])
  {
    var i := |sessions|;
    var r := Begin(cfg, list, i, chunksList[i]);
    BeginEstablishes(cfg, list, i, chunksList[i]);
    assert r.list[i].file == files[i];
    var s' := sessions + [r.vars];
    forall j | 0 <= j < |s'|
      ensures && RowInv(cfg, r.list[j], s'[j])
              && s'[j].chunks == chunksList[j]
              && r.list[j].file == files[j] && r.list[j].controls
              && (chunksList[j] != [] ==>
                    r.list[j].status == Uploading && s'[j].inFlight == [UploadCall(cfg, Fresh(chunksList[j]), 0)])
    {
      if j < i {
        assert r.list[j] == list[j] && s'[j] == sessions[j];
      }
    }
  }

  /** Once every file is started, every upload is valid and none resolved `false`. */
  lemma StartedAllValid(cfg: Config, files: seq<FileRef>, chunksList: seq<seq<Chunk>>, list: seq<Entry>, sessions: seq<Vars>)
    requires Started(cfg, files, chunksList, list, sessions) && |sessions| == |files|
    ensures Valid(cfg, Uploader(list, sessions)) && OnlyTrue(Uploader(list, sessions))
  {
    forall j | 0 <= j < |sessions|
      ensures ResolvesTrue(sessions[j].outcome)
    {
      assert RowInv(cfg, list[j], sessions[j]);
    }
  }

  /** The uploader after an event, with the lists it handed to `handleProcess`. */
  datatype Delivery = Delivery(u: Uploader, reports: seq<seq<Entry>>)

  /**
   * Delivers one event to the upload of file `i`. The lists handed to
   * `handleProcess` change row `i` only and end with the new list.
   */
  function Deliver(cfg: Config, u: Uploader, i: nat, ev: Event): (r: Delivery)
    requires |u.list| == |u.sessions| && i < |u.sessions| && Enabled(u.sessions[i], ev)
    ensures |r.u.list| == |u.list| && |r.u.sessions| == |u.sessions|
    ensures forall j | 0 <= j < |u.sessions| && j != i :: r.u.list[j] == u.list[j] && r.u.sessions[j] == u.sessions[j]
    ensures r.reports == [] ==> r.u.list == u.list
    ensures r.reports != [] ==> r.u.list == r.reports[|r.reports| - 1]
    ensures forall q | q in r.reports :: |q| == |u.list| && forall j | 0 <= j < |u.list| && j != i :: q[j] == u.list[j]
  {
    var s := Next(cfg, u.list, i, u.sessions[i], ev);
    NextHandsOver(cfg, u.list, i, u.sessions[i], ev, true);
    Delivery(Uploader(s.list, u.sessions[i := s.vars]), s.reports)
  }

  /** An event for one file keeps every file's upload valid. */
  lemma DeliverPreservesValid(cfg: Config, u: Uploader, i: nat, ev: Event)
    requires Valid(cfg, u) && i < |u.sessions| && Enabled(u.sessions[i], ev)
    ensures Valid(cfg, Deliver(cfg, u, i, ev).u)
  {
    var s := Next(cfg, u.list, i, u.sessions[i], ev);
    NextPreservesInv(cfg, u.list, i, u.sessions[i], ev);
    var r := Deliver(cfg, u, i, ev).u;
    assert r == Uploader(s.list, u.sessions[i := s.vars]);
    forall j | 0 <= j < |r.sessions|
      ensures RowInv(cfg, r.list[j], r.sessions[j])
    {
      if j != i {
        assert r.list[j] == u.list[j] && r.sessions[j] == u.sessions[j];
      }
    }
  }

  /** Delivers one event to the upload of file `i`, with the source's `resume`. */
  function DeliverAsWritten(cfg: Config, u: Uploader, i: nat, ev: Event): (r: Delivery)
    requires |u.list| == |u.sessions| && i < |u.sessions| && Enabled(u.sessions[i], ev)
    ensures |r.u.list| == |u.list| && |r.u.sessions| == |u.sessions|
    ensures forall j | 0 <= j < |u.sessions| && j != i :: r.u.list[j] == u.list[j] && r.u.sessions[j] == u.sessions[j]
    ensures r.reports == [] ==> r.u.list == u.list
    ensures r.reports != [] ==> r.u.list == r.reports[|r.reports| - 1]
    ensures forall q | q in r.reports :: |q| == |u.list| && forall j | 0 <= j < |u.list| && j != i :: q[j] == u.list[j]
  {
    var s := NextAsWritten(cfg, u.list, i, u.sessions[i], ev);
    NextHandsOver(cfg, u.list, i, u.sessions[i], ev, false);
    Delivery(Uploader(s.list, u.sessions[i := s.vars]), s.reports)
  }

  /** No file's promise has resolved with anything but `true`. */
  ghost predicate OnlyTrue(u: Uploader) {
    forall i | 0 <= i < |u.sessions| :: ResolvesTrue(u.sessions[i].outcome)
  }

  /** As written, every event keeps every file's promise from resolving with `false`. */
  lemma DeliverAsWrittenKeepsOnlyTrue(cfg: Config, u: Uploader, i: nat, ev: Event)
    requires |u.list| == |u.sessions| && i < |u.sessions| && Enabled(u.sessions[i], ev)
    requires OnlyTrue(u)
    ensures OnlyTrue(DeliverAsWritten(cfg, u, i, ev).u)
  {
    NextAsWrittenResolvesTrue(cfg, u.list, i, u.sessions[i], ev);
    var r := DeliverAsWritten(cfg, u, i, ev).u;
    forall j | 0 <= j < |r.sessions|
      ensures ResolvesTrue(r.sessions[j].outcome)
    {
      if j != i {
        assert r.sessions[j] == u.sessions[j];
      }
    }
  }

  /** The promise of every file, in selection order. */
  function Outcomes(u: Uploader): seq<Outcome> {
    seq(|u.sessions|, i requires 0 <= i < |u.sessions| => u.sessions[i].outcome)
  }

  /** Whether and how `finish` has been called. */
  datatype Signal = Awaiting | Finished(result: bool) | Abandoned

  /**
   * The tail of `handleChange` as written: `Promise.all` rejects as soon as
   * one file's promise rejects, the `await` throws and `finish` is never
   * called; once all resolve, `finish` reports whether all resolved `true`.
   */
  function FinishAsWritten(outcomes: seq<Outcome>): (r: Signal)
    ensures r == Abandoned <==> exists i | 0 <= i < |outcomes| :: outcomes[i].Rejected?
    ensures r.Finished? <==> forall i | 0 <= i < |outcomes| :: outcomes[i].Resolved?
    ensures r.Finished? ==> (r.result <==> forall i | 0 <= i < |outcomes| :: outcomes[i].value)
    ensures r == Awaiting <==>
      && (forall i | 0 <= i < |outcomes| :: !outcomes[i].Rejected?)
      && (exists i | 0 <= i < |outcomes| :: outcomes[i].Pending?)
  {
    if exists i | 0 <= i < |outcomes| :: outcomes[i].Rejected? then Abandoned
    else if forall i | 0 <= i < |outcomes| :: outcomes[i].Resolved? then
      Finished(forall i | 0 <= i < |outcomes| :: outcomes[i].value)
    else Awaiting
  }

  /**
   * As written, `finish` never hears of a failure: a file that fails makes
   * it never called, and `finish({ result: false })` cannot happen because
   * every promise resolves only with `true`.
   */
  lemma FinishNeverReportsFailure(u: Uploader)
    requires OnlyTrue(u)
    ensures FinishAsWritten(Outcomes(u)) != Finished(false)
    ensures (exists i | 0 <= i < |u.sessions| :: u.sessions[i].outcome.Rejected?) ==>
      FinishAsWritten(Outcomes(u)) == Abandoned
  {
    var os := Outcomes(u);
    if forall i | 0 <= i < |os| :: os[i].Resolved? {
      forall i | 0 <= i < |os|
        ensures os[i].value
      {
        assert os[i] == u.sessions[i].outcome;
      }
    }
    if exists i | 0 <= i < |u.sessions| :: u.sessions[i].outcome.Rejected? {
      var i :| 0 <= i < |u.sessions| && u.sessions[i].outcome.Rejected?;
      assert os[i].Rejected?;
    }
  }

  /**
   * `finish` corrected: it waits until every file's promise has settled and
   * then reports whether all of them resolved `true`.
   */
  function Finish(outcomes: seq<Outcome>): (s: Signal)
    ensures s == Finished(true) <==>
      forall i | 0 <= i < |outcomes| :: outcomes[i] == Resolved(true)
    ensures s == Finished(false) <==>
      && (forall i | 0 <= i < |outcomes| :: !outcomes[i].Pending?)
      && (exists i | 0 <= i < |outcomes| :: outcomes[i] != Resolved(true))
    ensures s != Abandoned
  {
    if exists i | 0 <= i < |outcomes| :: outcomes[i].Pending? then Awaiting
    else Finished(forall i | 0 <= i < |outcomes| :: outcomes[i] == Resolved(true))
  }

  /** Corrected, a file that failed makes `finish` report `false` once all have settled. */
  lemma FailedFileIsReported(cfg: Config, u: Uploader, i: nat)
    requires Valid(cfg, u) && i < |u.sessions| && u.sessions[i].outcome.Rejected?
    requires forall j | 0 <= j < |u.sessions| :: !u.sessions[j].outcome.Pending?
    ensures Finish(Outcomes(u)) == Finished(false)
  {
    assert Outcomes(u)[i] != Resolved(true);
  }
}
